=== FILE: README.md ===
# django-openid-op core in Dafny

This project models the security-relevant core of the `django-openid-op`
OpenID Connect provider and proves properties of it:

- **Redirect-URI policy** (`RedirectUri`): `check_redirect_url` and
  `__split_base_query`. A candidate redirect URI with a fragment is refused.
  Otherwise it is accepted when one of the client's whitespace-separated
  registered URIs matches it. The bases (the text before the last `?`) must
  be equal. The queries, parsed like `parse_qs(..., keep_blank_values=True)`,
  must match in both directions, and a blank registered value acts as a
  wildcard. The scan is modelled twice:
  - as the loops the code runs, with early exits;
  - as a declarative predicate `IsAuthorized`.

  The two are proved equal.
- **JWT issuance** (`Jwt`): `generate_jwt_patched` builds the JOSE header:
  `typ`, `alg`, then the extra headers merged over them. It builds the claims
  set: the caller's claims with `jti`, `nbf`, `iat` and `exp` written over
  them. It produces the compact JWS serialization of section 7.1 of RFC 7515,
  with an empty signature for `alg=none`. `JWTTools.generate_jwt` and
  `validate_jwt` fix the key, the `kid` header and the single allowed
  algorithm (`OPENID_JWT_CIPHER`, default `RS256`).
- **Answer plumbing** (`OAuthViews`): `oauth_send_answer` gives a JSON body
  with status 400 or 200, or a redirect with the parameters appended to the
  redirect URI's query. It echoes `state`. `parse_request_parameters` merges
  the query and the form and reports a parse failure as `invalid_request_uri`.
- **Token endpoint** (`TokenEndpoint`): `TokenRequestView` covers:
  - HTTP method filtering;
  - client authentication by HTTP Basic, `client_secret` or nothing (section
    2.3.1 of RFC 6749);
  - the `authorization_code` and `refresh_token` grants, including
    `validate_redirect_uri` and refresh-token expiry;
  - the JSON answers;
  - the claims of the ID token.

`Strings` models the Python string operations the code relies on:
- `find`;
- `rpartition`;
- `split(sep)`;
- `split(sep, 1)`;
- the separator-less `split()`;
- `startswith`.

`Wrappers` holds `Option` and `Result`.

The model follows the conventions below:
- A missing request parameter, header or dictionary entry is the empty
  string, the value Python's truthiness treats like `None`.
- Times are whole seconds since the epoch.
- The clock, the random bytes, JSON encoding, base64url, signing, password
  checking, token hashing and the decoding of Basic credentials and
  authorization codes are parameters or uninterpreted function-typed fields
  (`Jwt.Codec`, `TokenEndpoint.Store`).
- An exception other than `OAuthError` is the `Unexpected` failure, which
  the view's catch-all handler answers as `unknown_error`.

## Model

| member | source | states |
|---|---|---|
| Strings.SplitJoin | openid_connect_op/models.py:99 | Splitting on `&` (as `parse_qs` does) is the inverse of joining pieces that do not contain the separator. |
| Strings.RPartitionAppend | openid_connect_op/models.py:97 | Appending text without the separator only lengthens the part after the last separator; the base of a URI is fixed by its last `?`. |
| Strings.WordsConcat | openid_connect_op/models.py:53 | `redirect_uris.split()`: the words of `a`, a whitespace character, then `b` are the words of `a` followed by those of `b`. |
| Strings.WordsOfBlank | openid_connect_op/models.py:53 | A registration made only of whitespace holds no entry. |
| RedirectUri.HasFragmentIff | openid_connect_op/models.py:46-49 | The candidate has a non-empty fragment exactly when some `#` is followed by at least one character. |
| RedirectUri.ValuesOfMembership | openid_connect_op/models.py:99 | A value is listed for a key exactly when a field with that key and value occurs in the query. |
| RedirectUri.Collect | openid_connect_op/models.py:99 | The parsed query holds exactly the keys that were given values, each mapped to its values in order of appearance. |
| RedirectUri.ParseQsMembership | openid_connect_op/models.py:99 | A key is in the parsed query exactly when a non-empty `&`-separated segment names it; a value is listed exactly when a segment gives it. |
| RedirectUri.OneField | openid_connect_op/models.py:99 | `k=v` parses to the single key `k` with the single value `v`, a blank `v` kept. |
| RedirectUri.TwoFields | openid_connect_op/models.py:99 | `k1=v1&k2=v2` parses to both fields in order, a repeated key collecting both values. |
| RedirectUri.SplitBaseQuery | openid_connect_op/models.py:95-100 | Without `?` the URI is all base and has no query. Otherwise the base is the text before the last `?`, and the query is the parse of the text after it (none when that text is empty). |
| RedirectUri.SplitWithQuery | openid_connect_op/models.py:95-100 | `base?raw` with `raw` free of `?` splits into `base` and the parse of `raw`. |
| RedirectUri.CheckRegisteredQuery | openid_connect_op/models.py:66-73 | The first loop succeeds exactly when every registered key is in the candidate and every non-blank registered value is among the candidate's values for that key. |
| RedirectUri.CheckCandidateQuery | openid_connect_op/models.py:77-86 | The second loop succeeds exactly when every candidate key is registered, and each of its values is registered for that key unless the key's registered values include a blank one. |
| RedirectUri.CheckEntry | openid_connect_op/models.py:54-88 | One registered entry accepts the candidate exactly when the bases are equal and both directions hold. |
| RedirectUri.CheckRedirectUrl | openid_connect_op/models.py:39-93 | The scan answers `IsAuthorized`: no fragment, and some registered word matches. A fragment always refuses; acceptance implies a registered entry with the same base. |
| RedirectUri.FirstMatch | openid_connect_op/models.py:52-90 | The scan stops at the first registered entry that matches, and no earlier entry matches; it runs to the end only when none does. |
| RedirectUri.BlankRegistrationRejects | openid_connect_op/models.py:53-93 | With only whitespace registered, every candidate is refused. |
| RedirectUri.EntryOrderIrrelevant | openid_connect_op/models.py:53-93 | Swapping two whitespace-separated parts of the registration does not change the decision. |
| RedirectUri.SameEntriesSameDecision | openid_connect_op/models.py:53-93 | Two registrations with the same set of words decide every candidate alike, whatever their order or repetitions. |
| RedirectUri.QuerylessEntry | openid_connect_op/models.py:77-82 | A registered entry without a query accepts exactly the candidates with the same base and no (or an empty) query. |
| RedirectUri.RegisteredQueryNeedsCandidateQuery | openid_connect_op/models.py:66-69 | A registered query refuses a candidate that has none. |
| RedirectUri.RegisteredEntryAuthorized | openid_connect_op/models.py:39-93 | Every registered entry without a fragment is itself an authorized redirect URI. |
| RedirectUri.BlankValueIsWildcard | openid_connect_op/models.py:64-86 | When a key's registered values are all blank, a matching candidate still matches with any values for that key. |
| RedirectUri.BlankRegisteredValueAcceptsAny | openid_connect_op/models.py:64-86 | Registered `base?k=` accepts `base?k=v` for every plain `v`. |
| RedirectUri.UnregisteredKeyRejected | openid_connect_op/models.py:80-82 | Registered `base?k=x` refuses `base?k=x&extra=w`: the candidate has a key that is not registered. |
| RedirectUri.RequiredValueMissingRejected | openid_connect_op/models.py:71-73 | Registered `base?k=x` (non-blank `x`) refuses `base?k=y` for `y != x`. |
| RedirectUri.ExtraValueRejected | openid_connect_op/models.py:83-86 | Registered `base?k=x` (non-blank `x`) refuses `base?k=x&k=y` for `y != x`: every candidate value must be registered. |
| Jwt.IssueHeader | openid_connect_op/utils/jwt.py:51-55 | The header holds `typ`, `alg` and the extra headers, and an extra header wins over `typ`/`alg`. Otherwise `typ` is `JWT`, and `alg` is the requested algorithm when a key is given and `none` without one. |
| Jwt.IssueClaims | openid_connect_op/utils/jwt.py:57-70 | The claims are the caller's plus `nbf`, `iat`, `jti` when `jti_size` is non-zero, and `exp` when a non-zero lifetime or an expiry is given. All other claims are unchanged. `nbf` defaults to now, a lifetime wins over `expires`, and a caller's `exp` survives when neither is given. |
| Jwt.Issue | openid_connect_op/utils/jwt.py:51-77 | A token carries the header and claims above. Its signature is empty when the final `alg` is `none`, and otherwise is what the signer yields for the key, that header and the claims JSON. Issuance fails exactly when `alg` is not `none` and there is no key or the signer fails. |
| Jwt.GenerateJwtPatched | openid_connect_op/utils/jwt.py:15-83 | Produces a token exactly when issuance succeeds. |
| Jwt.CompactSegments | openid_connect_op/utils/jwt.py:79-83 | Splitting the compact serialization on `.` gives back exactly the header segment, the claims segment and the signature. |
| Jwt.GeneratedTokenSegments | openid_connect_op/utils/jwt.py:72-83 | A generated token has three `.`-separated segments. The first two encode the header and claims, and the third is the signature, which is empty exactly for `alg=none`. |
| Jwt.GenerateJwtProfile | openid_connect_op/utils/jwt.py:88-106 | Tokens from `generate_jwt` carry `kid` and `typ=JWT`. They are signed with the configured cipher, which is the only algorithm `validate_jwt` accepts. They carry a `jti`, have `nbf == iat == now`, and keep every payload claim other than `jti`, `nbf` and `iat`. |
| OAuthViews.Lookup | openid_connect_op/views/__init__.py:24 | `QueryDict.get` yields the last value of a present key with values, and the empty (falsy) string otherwise. |
| OAuthViews.RedirectTarget | openid_connect_op/views/__init__.py:19-24 | With parsed parameters the target is their `redirect_uri`; otherwise the GET `redirect_uri` when it is non-empty, else the POST one. A non-empty target is the last value of one of them. |
| OAuthViews.AnswerParams | openid_connect_op/views/__init__.py:17-22 | The answer carries the response parameters unchanged, with a non-empty request `state` written over `state`. |
| OAuthViews.OAuthSendAnswer | openid_connect_op/views/__init__.py:16-34 | A JSON answer is given exactly when there is no redirect target or redirects are off. Its status is 400 exactly when the response has an `error`, else 200. A redirect is the target, then `&` or `?`, then the encoded parameters. |
| OAuthViews.AppendQueryKeepsBase | openid_connect_op/views/__init__.py:29-33 | Appending the parameters keeps the redirect on the base the redirect-URI policy compared; for a target without a query, they become its query. |
| OAuthViews.MergedParameters | openid_connect_op/views/__init__.py:38-46 | GET passes the query `QueryDict`. Another method with a non-empty query passes a plain dict of value lists: the union of query and form keys, with a form key's whole list replacing the query's. Otherwise the form `QueryDict` is passed. |
| OAuthViews.ParseRequestParameters | openid_connect_op/views/__init__.py:36-50 | Parsing succeeds exactly when the parameters class accepts the merged parameters; a failure is `invalid_request_uri`. |
| TokenEndpoint.Get | openid_connect_op/views/token_request_view.py:83-88 | `objects.get` fails with `DoesNotExist` exactly when no row matches, and with `MultipleObjectsReturned` exactly when two rows match; so a unique match is found. A found row is in the table, matches, and is the only match. |
| TokenEndpoint.MatchingTwice | openid_connect_op/views/token_request_view.py:83-88 | At least two rows are selected exactly when two distinct positions of the table match. |
| TokenEndpoint.AuthenticateWithHttpBasic | openid_connect_op/views/token_request_view.py:147-164 | Success returns a stored client configured for Basic whose username is the header's and whose password checks, and whose `client_id` agrees with a given one. Each cause has its own answer. A header that does not decode or split reaches the catch-all, and so do several clients with the username. An unknown username or a bad password is `unauthorized_client`. After the password check, a `client_id` mismatch or a client not configured for Basic is `invalid_request`. Conversely, decoded credentials of the unique client with that username, whose password checks, whose `client_id` agrees and which is configured for Basic, authenticate that client. |
| TokenEndpoint.BasicCredentials | openid_connect_op/views/token_request_view.py:148 | The pair is the decoded header split at its first `:`; there is none exactly when decoding fails or the decoded text has no `:`, which the view's catch-all answers. |
| TokenEndpoint.AuthenticateWithClientSecret | openid_connect_op/views/token_request_view.py:166-183 | Without `client_id` the answer is `invalid_request`. Success returns the stored client with that `client_id`, configured for POST, whose secret checks. Conversely, the unique client with that `client_id`, configured for POST and whose secret checks, is authenticated. Otherwise a client configured differently is `invalid_request`. An unknown `client_id` or a bad secret is `unauthorized_client`, and several clients with the `client_id` reach the catch-all. |
| TokenEndpoint.TryNullAuthentication | openid_connect_op/views/token_request_view.py:185-197 | A client is returned only if it is stored under the given `client_id` and configured for no authentication. When the lookup succeeds, nothing is returned exactly when `client_id` is empty or no such client exists. The lookup fails exactly when several clients share the `client_id`, and the unique client configured for no authentication is returned. |
| TokenEndpoint.AuthenticateClient | openid_connect_op/views/token_request_view.py:134-145 | The authenticated client is stored and configured for the method the request used (Basic header, then `client_secret`, then none). It never contradicts a given `client_id`, and has its password checked unless it uses none. No method and no `client_id` gives `unsupported_authentication_method`, and so does no method when the no-authentication lookup finds no client. The answer is that of the Basic check for a Basic header, that of the secret check for a `client_secret`, and otherwise the client the no-authentication lookup returns, or its failure. |
| TokenEndpoint.ValidateRedirectUri | openid_connect_op/views/token_request_view.py:124-132 | The token request passes exactly when its `redirect_uri` equals the authorization's (both possibly absent); otherwise `invalid_request_uri`. |
| TokenEndpoint.ProcessAuthorizationCode | openid_connect_op/views/token_request_view.py:62-76 | A grant needs a code that unpacks to the authorization, whose `redirect_uri` equals the request's; conversely such a code is granted for that authorization. A missing code is `invalid_request`, a code that does not unpack `unauthorized_client`, and a `redirect_uri` mismatch `invalid_request_uri`. |
| TokenEndpoint.ProcessRefreshToken | openid_connect_op/views/token_request_view.py:78-93 | As written: a grant needs a stored, unexpired token with that hash, and the grant is for its root authorization. A missing parameter is `invalid_request` and an unknown token `invalid_grant`. An expired token is refused with exactly `invalid_grant` "Refresh token expired", and an unexpired one is granted for its root authorization; a token without one reaches the catch-all. |
| TokenEndpoint.RefreshTokenOfAnotherClientAccepted | openid_connect_op/views/token_request_view.py:78-93 | As written, client `b` is granted with the unexpired refresh token of client `a`. |
| TokenEndpoint.ProcessRefreshTokenBound | openid_connect_op/views/token_request_view.py:78-93 | Corrected: a grant needs, in addition, that the token was issued to the authenticated client; a token of another client is never granted. |
| TokenEndpoint.Dispatch | openid_connect_op/views/token_request_view.py:32-54 | Corrected refresh branch. Only methods other than GET and POST are refused outright. A grant needs parsed parameters, exactly one of the two grant types, and an authenticated client; conversely, a parse failure or an authentication failure is the answer, and otherwise the answer is that of the authorization-code processing or of the corrected refresh-token processing. Any other grant type, after authentication, is `invalid_request_uri`. |
| TokenEndpoint.ErrorAnswer | openid_connect_op/views/token_request_view.py:50-60 | An error is answered as JSON with status 400 and its error code. |
| TokenEndpoint.GrantAnswer | openid_connect_op/views/token_request_view.py:116-122 | A grant is answered as JSON with status 200, the three tokens, `token_type` `Bearer` and `expires_in` the access-token lifetime. |
| TokenEndpoint.AnswerOutcome | openid_connect_op/views/token_request_view.py:32-122 | A method other than GET or POST gets a bad request and every other outcome a JSON answer. A failure is 400 with its error code, a grant whose token issuing fails is 400 `unknown_error`, and an issued grant is 200 with a Bearer token and the access lifetime. |
| TokenEndpoint.Respond | openid_connect_op/views/token_request_view.py:32-122 | Uses the corrected dispatch. Bad request exactly for methods other than GET and POST; otherwise always JSON. The status is 400 exactly when dispatch failed, carrying its error code, or when issuing the tokens for a grant failed, answered `unknown_error`. Otherwise a grant is answered 200 with a Bearer token and the access lifetime. |
| TokenEndpoint.IdTokenClaims | openid_connect_op/views/token_request_view.py:199-221 | The ID token claims are `iss`, `sub`, `aud` (the client as the only audience) and `exp` (the access token's expiration), plus `nonce` exactly when the authorization had one. |
| TokenEndpoint.IdTokenIssued | openid_connect_op/views/token_request_view.py:199-222 | The issued ID token keeps the audience, the expiration and the nonce. It is valid from issuance, is signed with the configured cipher, and names the key by `kid`. |

## Findings

| source | as written | input that shows it | evidently intended | confidence | as-written member | corrected member |
|---|---|---|---|---|---|---|
| openid_connect_op/views/token_request_view.py:78-93 | A refresh token is looked up by its hash and checked for expiry only; the client it was created for is never compared with the authenticated client. | Client `b` authenticates and presents an unexpired refresh token created for client `a`; tokens are issued for `b`. | Section 6 of RFC 6749 requires the server to ensure the refresh token was issued to the authenticated client, answering `invalid_grant` otherwise. | medium, not executed | TokenEndpoint.RefreshTokenOfAnotherClientAccepted | TokenEndpoint.ProcessRefreshTokenBound |

`TokenEndpoint.Dispatch` uses the corrected `ProcessRefreshTokenBound`.
`TokenEndpoint.BoundAgreesOnOwnTokens` shows that the correction changes
nothing when a client presents its own refresh token. The client a token was
created for is the first argument of `OpenIDToken.create_token`
(openid_connect_op/views/token_request_view.py:107-114). The `OpenIDToken`
model itself is not part of this model.

A registered `...?scope=x` refuses the candidate `...?scope=x&scope=y`. The
second loop (openid_connect_op/models.py:83-86) requires every candidate
value to be registered unless a blank value is registered, and
`RedirectUri.ExtraValueRejected` proves the refusal.

## Left out

- Cryptography, JSON encoding and base64url: signing, key loading (`JWK.from_pem`), `kid` derivation, `json_encode` and `base64url_encode` are uninterpreted functions. Only the facts the compact form needs are assumed: base64url output holds no `.`, and a signature is non-empty and holds no `.`.
- `JWTTools.validate_jwt`: only the arguments it passes are modelled. `verify_jwt` itself, including signature, `exp` and `nbf` checks, is a parameter. `get_jwks` and `kid` are key export and are not modelled.
- Time: `datetime.utcnow()`, `timezone.now()` and `timegm(...)` become an integer `now` in seconds. A `timedelta` lifetime is an integer number of seconds, so sub-second parts are not modelled.
- Randomness: the `urandom(jti_size)` bytes are a parameter. `jti_size=None` is modelled as 0.
- Query parsing: `parse_qs` percent-decoding and `+`-to-space translation are not modelled. Keys and values are compared as raw text.
- OAuthViews.OAuthSendAnswer: `RedirectAnswer.location` is the argument the view passes to Django's `HttpResponseRedirect`. Two things that class does are not modelled. It refuses a scheme other than http, https or ftp with `DisallowedRedirect`, so a custom-scheme redirect URI gets no redirect. It also percent-encodes the location with `iri_to_uri`, so the `Location` header differs from `location` when that holds spaces or non-ASCII text. `JsonResponse` is likewise modelled only as its body and status.
- Basic header decoding: `.strip()`, `base64.b64decode` and UTF-8 decoding together are the uninterpreted `decodeBasic` of the store; a decoding error reaches the catch-all.
- `urlparse` strips tab, CR and LF and can raise `ValueError` on a malformed IPv6 host; neither is modelled. The fragment is the text after the first `#`.
- A registered entry ending in a bare `?` has an empty query string, which the code keeps as `''` rather than `None`. The model treats it as having no query; every branch of the code behaves the same, with one exception. A candidate field with an empty name (`base?=x`) makes the code index a string with a string and raise `TypeError`; the model answers "not authorized".
- Django request objects: a `QueryDict` is a map from keys to value lists, and `QueryDict.get` reads the last value. `dict.update` copies whole lists, so the parameters class receives either a `QueryDict` or a plain dict of lists; how it reads the plain dict is inside the parameters class, which is a parameter. The `Authorization` header, `request.user`, `request.build_absolute_uri('/')` and `request.method` are plain fields or parameters.
- `views/parameters.py` and `views/errors.py` are not part of this model. The fields of `TokenParameters` and `AuthenticationParameters` are those the view reads. Parsing is a parameter returning either the parameters or an error message. `AuthenticationParameters.unpack` is a parameter that either yields the authorization or fails (`ValueError`).
- Only `AttributeError` from the parameters class becomes `invalid_request_uri` in the code; other exceptions reach the catch-all. The model maps every parse failure to `invalid_request_uri`.
- Error descriptions that the code formats with run-time values are fixed strings in the model: the invalid grant type, the authorization-code message `str(e)`, and the catch-all message with its timestamp. The catch-all's traceback printing is not modelled.
- `generate_tokens_and_oauth_response`: looking up the user, creating the access and refresh tokens in the database (`OpenIDToken.create_token`) and creating the ID token are the `issue` parameter of `Respond`. It receives both lifetimes and yields nothing when any of these raises, which the catch-all answers with `unknown_error`.
- TokenEndpoint.Dispatch: its refresh-token branch uses the corrected `ProcessRefreshTokenBound`, so unlike lines 78-93 as written, a client presenting another client's unexpired refresh token is refused with `invalid_grant`.
- TokenEndpoint.Respond: it answers through the corrected `Dispatch`, so another client's unexpired refresh token gets a 400 `invalid_grant` answer where the code as written issues tokens.
- `create_id_token` stores the ID token in the database; this is not modelled. Its `sub` is `request.user.username`, a parameter.
- Rate limiting (`RatelimitMixin`), CSRF exemption and Django settings lookup (settings become `Option` parameters) are not modelled.
- `views/wellknown.py`, `urls.py` and `tests/crypto/test_crypto.py` are outside the core and not modelled.
- Jwt.GenerateJwt and Jwt.ValidateJwt carry no contract of their own; their behaviour is stated by `Jwt.GenerateJwtProfile` about the `Issue` call they make.

=== FILE: jwt.dfy ===
/** JWT issuance as `generate_jwt_patched` performs it, and the parameter
    choices of `JWTTools.generate_jwt` / `validate_jwt`.

    The header is `typ`/`alg` with the caller's extra headers merged over it;
    the claims are the caller's with the registered claims of section 4.1 of
    RFC 7519 (`jti`, `nbf`, `iat`, `exp`) written over them; the output is the
    JWS compact serialization of section 7.1 of RFC 7515, with an empty
    signature for the unsecured `alg=none` of section 3.6 of RFC 7518.

    JSON encoding, base64url, signing, the clock and the random source are
    not modelled: the clock and the random bytes are parameters, the rest are
    the uninterpreted functions of a `Codec`. */
module Jwt {
  import opened Wrappers
  import opened Strings

  newtype byte = x: int | 0 <= x < 256

  /** The claim values the provider puts in tokens. */
  datatype Claim = Str(s: string) | Num(n: int) | StrList(items: seq<string>)

  type Claims = map<string, Claim>
  type Header = map<string, string>

  /** A private key loaded from PEM; only the signer looks inside it. */
  datatype Key = Key(pem: string)

  /** The library calls of issuance, left uninterpreted:
      `base64url_encode`, `json_encode` of the header and of the claims, and
      the JWS signer, which yields the encoded signature or nothing when
      signing fails. */
  datatype Codec = Codec(
    base64url: seq<byte> -> string,
    headerJson: Header -> seq<byte>,
    claimsJson: Claims -> seq<byte>,
    sign: (Key, Header, seq<byte>) -> Option<string>)

  /** What the compact form relies on: base64url text never holds a `.`, and a
      produced signature is non-empty base64url text. */
  ghost predicate WellBehaved(codec: Codec) {
    && (forall b :: '.' !in codec.base64url(b))
    && (forall k, h, p :: codec.sign(k, h, p).Some? ==>
          codec.sign(k, h, p).value != [] && '.' !in codec.sign(k, h, p).value)
  }

  /** The keyword arguments of `generate_jwt_patched`; times are whole
      seconds since the epoch, `lifetime` a length in seconds. */
  datatype Options = Options(
    key: Option<Key>,
    algorithm: string,
    lifetime: Option<int>,
    expires: Option<int>,
    notBefore: Option<int>,
    jtiSize: nat,
    extraHeaders: Header)

  /** The defaults of `generate_jwt_patched`: `PS512`, 16 random bytes of
      `jti`, no lifetime, expiry, start time or extra header. */
  function Defaults(key: Option<Key>): Options {
    Options(key, "PS512", None, None, None, 16, map[])
  }

  /** `if lifetime:` — a zero-length lifetime is falsy like a missing one. */
  predicate HasLifetime(opts: Options) {
    opts.lifetime.Some? && opts.lifetime.value != 0
  }

  datatype Token = Token(header: Header, claims: Claims, signature: string)

  datatype SigningError = SigningError

  const NoAlgorithm: string := "none"

  /** The JOSE header: `typ` and `alg`, then the extra headers over them. */
  function IssueHeader(key: Option<Key>, algorithm: string, extra: Header): (h: Header)
    ensures h.Keys == {"typ", "alg"} + extra.Keys
    ensures forall k :: k in extra ==> h[k] == extra[k]
    ensures "typ" !in extra ==> h["typ"] == "JWT"
    ensures "alg" !in extra ==> h["alg"] == (if key.Some? then algorithm else NoAlgorithm)
  {
    map["typ" := "JWT", "alg" := (if key.Some? then algorithm else NoAlgorithm)] + extra
  }

  /** The claims set: a copy of the caller's, with the generated claims
      written over same-named entries. `entropy` is what `urandom(jti_size)`
      returned. */
  function IssueClaims(claims: Claims, opts: Options, now: int, entropy: seq<byte>, codec: Codec): (r: Claims)
    requires |entropy| == opts.jtiSize
    ensures r.Keys == claims.Keys + {"nbf", "iat"}
                      + (if opts.jtiSize > 0 then {"jti"} else {})
                      + (if HasLifetime(opts) || opts.expires.Some? then {"exp"} else {})
    ensures forall k :: k in claims && k !in {"jti", "nbf", "iat", "exp"} ==> r[k] == claims[k]
    ensures opts.jtiSize > 0 ==> r["jti"] == Str(codec.base64url(entropy))
    ensures opts.jtiSize == 0 && "jti" in claims ==> r["jti"] == claims["jti"]
    ensures r["nbf"] == Num(opts.notBefore.GetOr(now))
    ensures r["iat"] == Num(now)
    ensures HasLifetime(opts) ==> r["exp"] == Num(now + opts.lifetime.value)
    ensures !HasLifetime(opts) && opts.expires.Some? ==> r["exp"] == Num(opts.expires.value)
    ensures !HasLifetime(opts) && opts.expires.None? && "exp" in claims ==> r["exp"] == claims["exp"]
  {
    var withJti := if opts.jtiSize > 0 then claims["jti" := Str(codec.base64url(entropy))] else claims;
    var timed := withJti["nbf" := Num(opts.notBefore.GetOr(now))]["iat" := Num(now)];
    if HasLifetime(opts) then timed["exp" := Num(now + opts.lifetime.value)]
    else if opts.expires.Some? then timed["exp" := Num(opts.expires.value)]
    else timed
  }

  /** Header, claims and signature of a token; the signature is empty exactly
      when the final header says `alg=none`, and signing fails without a key. */
  function Issue(claims: Claims, opts: Options, now: int, entropy: seq<byte>, codec: Codec): (r: Result<Token, SigningError>)
    requires |entropy| == opts.jtiSize
    ensures r.Success? ==> r.value.header == IssueHeader(opts.key, opts.algorithm, opts.extraHeaders)
    ensures r.Success? ==> r.value.claims == IssueClaims(claims, opts, now, entropy, codec)
    ensures r.Success? && WellBehaved(codec) ==> (r.value.signature == [] <==> r.value.header["alg"] == NoAlgorithm)
    ensures r.Success? && r.value.header["alg"] == NoAlgorithm ==> r.value.signature == []
    ensures r.Success? && r.value.header["alg"] != NoAlgorithm ==>
              && opts.key.Some?
              && codec.sign(opts.key.value, r.value.header, codec.claimsJson(r.value.claims)) == Some(r.value.signature)
    ensures r.Failure? <==>
              && IssueHeader(opts.key, opts.algorithm, opts.extraHeaders)["alg"] != NoAlgorithm
              && (opts.key.None? ||
                  codec.sign(opts.key.value, IssueHeader(opts.key, opts.algorithm, opts.extraHeaders),
                             codec.claimsJson(IssueClaims(claims, opts, now, entropy, codec))).None?)
  {
    var header := IssueHeader(opts.key, opts.algorithm, opts.extraHeaders);
    var body := IssueClaims(claims, opts, now, entropy, codec);
    if header["alg"] == NoAlgorithm then Success(Token(header, body, []))
    else if opts.key.None? then Failure(SigningError)
    else
      match codec.sign(opts.key.value, header, codec.claimsJson(body))
      case None => Failure(SigningError)
      case Some(signature) => Success(Token(header, body, signature))
  }

  /** The compact serialization: header segment, claims segment, signature. */
  function Compact(t: Token, codec: Codec): string
  {
    codec.base64url(codec.headerJson(t.header)) + "." + codec.base64url(codec.claimsJson(t.claims)) + "." + t.signature
  }

  /** `generate_jwt_patched`. */
  function GenerateJwtPatched(claims: Claims, opts: Options, now: int, entropy: seq<byte>, codec: Codec): (r: Result<string, SigningError>)
    requires |entropy| == opts.jtiSize
    ensures r.Success? <==> Issue(claims, opts, now, entropy, codec).Success?
  {
    var t :- Issue(claims, opts, now, entropy, codec);
    Success(Compact(t, codec))
  }

  /** Splitting the compact form on `.` gives back exactly its three
      segments. */
  lemma CompactSegments(t: Token, codec: Codec)
    requires WellBehaved(codec)
    requires '.' !in t.signature
    ensures Split(Compact(t, codec), '.') ==
              [codec.base64url(codec.headerJson(t.header)), codec.base64url(codec.claimsJson(t.claims)), t.signature]
  {
    var h := codec.base64url(codec.headerJson(t.header));
    var c := codec.base64url(codec.claimsJson(t.claims));
    var parts := [h, c, t.signature];
    assert parts[1..] == [c, t.signature] && parts[1..][1..] == [t.signature];
    assert Join([t.signature], '.') == t.signature;
    assert Join([c, t.signature], '.') == c + "." + t.signature;
    assert Join(parts, '.') == h + "." + (c + "." + t.signature);
    assert Join(parts, '.') == Compact(t, codec);
    SplitJoin(parts, '.');
  }

  /** A generated token has three `.`-separated segments, the last empty
      exactly for `alg=none`. */
  lemma GeneratedTokenSegments(claims: Claims, opts: Options, now: int, entropy: seq<byte>, codec: Codec)
    requires |entropy| == opts.jtiSize
    requires WellBehaved(codec)
    ensures var r := GenerateJwtPatched(claims, opts, now, entropy, codec);
            var t := Issue(claims, opts, now, entropy, codec);
            r.Success? ==>
              && |Split(r.value, '.')| == 3
              && Split(r.value, '.')[0] == codec.base64url(codec.headerJson(t.value.header))
              && Split(r.value, '.')[1] == codec.base64url(codec.claimsJson(t.value.claims))
              && Split(r.value, '.')[2] == t.value.signature
              && (Split(r.value, '.')[2] == [] <==> t.value.header["alg"] == NoAlgorithm)
  {
    var t := Issue(claims, opts, now, entropy, codec);
    if t.Success? {
      CompactSegments(t.value, codec);
    }
  }

  /** Without `not_before`, a token becomes valid when it is issued. */
  lemma NotBeforeDefaultsToIssuedAt(claims: Claims, opts: Options, now: int, entropy: seq<byte>, codec: Codec)
    requires |entropy| == opts.jtiSize
    requires opts.notBefore.None?
    ensures IssueClaims(claims, opts, now, entropy, codec)["nbf"] == IssueClaims(claims, opts, now, entropy, codec)["iat"]
  {
  }

  /** With a lifetime, the token expires that many seconds after issuance,
      whatever expiry was also requested. */
  lemma LifetimeSpan(claims: Claims, opts: Options, now: int, entropy: seq<byte>, codec: Codec)
    requires |entropy| == opts.jtiSize
    requires HasLifetime(opts)
    ensures var r := IssueClaims(claims, opts, now, entropy, codec);
            r["exp"].Num? && r["iat"].Num? && r["exp"].n - r["iat"].n == opts.lifetime.value
  {
  }

  // ---------------------------------------------------------------------
  // JWTTools
  // ---------------------------------------------------------------------

  const DefaultCipher: string := "RS256"

  /** `getattr(settings, 'OPENID_JWT_CIPHER', 'RS256')`. */
  function Cipher(configured: Option<string>): string {
    configured.GetOr(DefaultCipher)
  }

  /** The arguments `generate_jwt` passes: the provider's key, the configured
      cipher and a `kid` header, everything else defaulted. */
  function ToolsOptions(configured: Option<string>, privateKey: Key, kid: string): Options {
    Defaults(Some(privateKey)).(algorithm := Cipher(configured), extraHeaders := map["kid" := kid])
  }

  /** `JWTTools.generate_jwt`. */
  function GenerateJwt(payload: Claims, configured: Option<string>, privateKey: Key, kid: string,
                       now: int, entropy: seq<byte>, codec: Codec): Result<string, SigningError>
    requires |entropy| == 16
  {
    GenerateJwtPatched(payload, ToolsOptions(configured, privateKey, kid), now, entropy, codec)
  }

  /** The algorithms `validate_jwt` lets the verifier accept. */
  function AllowedAlgorithms(configured: Option<string>): seq<string> {
    [Cipher(configured)]
  }

  /** `JWTTools.validate_jwt`: the token, the provider's public key and the
      one allowed algorithm go to the verifier. */
  function ValidateJwt<E>(token: string, configured: Option<string>, publicKey: Key,
                          verify: (string, Key, seq<string>) -> Result<Claims, E>): Result<Claims, E>
  {
    verify(token, publicKey, AllowedAlgorithms(configured))
  }

  /** Tokens from `generate_jwt` carry the `kid`, are signed with the
      configured cipher (the only one `validate_jwt` accepts), get a `jti`,
      become valid when issued, and keep every payload claim other than `jti`,
      `nbf` and `iat` (in particular a payload `exp`). */
  lemma GenerateJwtProfile(payload: Claims, configured: Option<string>, privateKey: Key, kid: string,
                           now: int, entropy: seq<byte>, codec: Codec)
    requires |entropy| == 16
    ensures var r := Issue(payload, ToolsOptions(configured, privateKey, kid), now, entropy, codec);
            r.Success? ==>
              && r.value.header["kid"] == kid
              && r.value.header["typ"] == "JWT"
              && r.value.header["alg"] == Cipher(configured)
              && (forall alg :: alg in AllowedAlgorithms(configured) <==> alg == r.value.header["alg"])
              && r.value.claims["jti"] == Str(codec.base64url(entropy))
              && r.value.claims["nbf"] == r.value.claims["iat"] == Num(now)
              && (forall k :: k in payload && k !in {"jti", "nbf", "iat"} ==> r.value.claims[k] == payload[k])
  {
  }
}

=== FILE: oauth_views.dfy ===
/** The answer and parameter plumbing shared by the OAuth endpoints
    (`OAuthRequestMixin`): an answer goes back either as a JSON body with
    status 400 or 200 (section 5.2 of RFC 6749) or as a redirect that appends
    the parameters to the redirect URI's query (section 4.1.2 of RFC 6749),
    echoing the request's `state`. */
module OAuthViews {
  import opened Wrappers
  import opened Strings
  import RedirectUri

  datatype ParamValue = Text(s: string) | Int(i: int)

  /** Response parameters, as the dict handed to `oauth_send_answer`. */
  type Params = map<string, ParamValue>

  /** An OAuth error: its code and human-readable description. */
  datatype OAuthError = OAuthError(error: string, description: string)

  /** A Django `QueryDict` as it stores its data: each key with the list of
      its values, in order. */
  type QueryDict = map<string, seq<string>>

  /** An HTTP request as the views read it; an absent `Authorization` header
      is the empty string. */
  datatype HttpRequest = HttpRequest(
    verb: string,
    get: QueryDict,
    post: QueryDict,
    authorization: string)

  /** What the parameters class is handed: a request's `QueryDict` itself, or
      the plain `dict` built by merging the query and the form. `dict.update`
      from a `QueryDict` copies each key's stored list of values, so the
      plain dict maps keys to lists, not to single values. */
  datatype ParamSource = QueryDictOf(lists: QueryDict) | PlainDict(lists: QueryDict)

  /** What an answer consults of the parsed request parameters: the
      `redirect_uri` (empty when missing) and the `state` attribute (`None`
      when the parameters class has no such attribute). */
  datatype RequestParameters = RequestParameters(redirectUri: string, state: Option<string>)

  datatype Answer = JsonAnswer(body: Params, status: int) | RedirectAnswer(location: string)

  /** The last of several values for one key. */
  function Last(values: seq<string>): string
    requires values != []
  {
    values[|values| - 1]
  }

  /** `QueryDict.get(key)`: the last value given for the key; a missing key
      or an empty list reads as the (falsy) empty string. */
  function Lookup(d: QueryDict, key: string): (r: string)
    ensures r != [] ==> key in d && d[key] != [] && r == Last(d[key])
    ensures key in d && d[key] != [] ==> r == Last(d[key])
    ensures key !in d || d[key] == [] ==> r == []
  {
    if key in d && d[key] != [] then Last(d[key]) else []
  }

  predicate EchoesState(parsed: Option<RequestParameters>) {
    parsed.Some? && parsed.value.state.Some? && parsed.value.state.value != []
  }

  /** The parameters actually sent: a copy of the response's, with a
      non-empty request `state` written over any `state` already there. */
  function AnswerParams(response: Params, parsed: Option<RequestParameters>): (r: Params)
    ensures forall k :: k in response && k != "state" ==> k in r && r[k] == response[k]
    ensures r.Keys <= response.Keys + {"state"}
    ensures EchoesState(parsed) ==> "state" in r && r["state"] == Text(parsed.value.state.value)
    ensures !EchoesState(parsed) ==> r == response
  {
    if EchoesState(parsed) then response["state" := Text(parsed.value.state.value)] else response
  }

  /** Where a redirect would go: the parsed `redirect_uri` when parameters were
      parsed, otherwise the GET and then the POST `redirect_uri`. */
  function RedirectTarget(request: HttpRequest, parsed: Option<RequestParameters>): (r: string)
    ensures parsed.Some? ==> r == parsed.value.redirectUri
    ensures parsed.None? && "redirect_uri" in request.get && request.get["redirect_uri"] != [] ==>
              Last(request.get["redirect_uri"]) != [] ==> r == Last(request.get["redirect_uri"])
    ensures parsed.None? && Lookup(request.get, "redirect_uri") == [] ==> r == Lookup(request.post, "redirect_uri")
    ensures parsed.None? && r != [] ==>
              || ("redirect_uri" in request.get && request.get["redirect_uri"] != [] && r == Last(request.get["redirect_uri"]))
              || ("redirect_uri" in request.post && request.post["redirect_uri"] != [] && r == Last(request.post["redirect_uri"]))
  {
    match parsed
    case Some(p) => p.redirectUri
    case None =>
      if Lookup(request.get, "redirect_uri") != [] then Lookup(request.get, "redirect_uri")
      else Lookup(request.post, "redirect_uri")
  }

  /** The redirect URI with the encoded parameters appended to its query. */
  function AppendQuery(uri: string, encoded: string): string {
    uri + (if '?' in uri then "&" else "?") + encoded
  }

  /** `oauth_send_answer`; `urlencode` is left uninterpreted. */
  function OAuthSendAnswer(request: HttpRequest, parsed: Option<RequestParameters>, useRedirectUri: bool,
                           response: Params, urlencode: Params -> string): (a: Answer)
    ensures a.JsonAnswer? <==> RedirectTarget(request, parsed) == [] || !useRedirectUri
    ensures a.JsonAnswer? ==> a.body == AnswerParams(response, parsed)
    ensures a.JsonAnswer? ==> (a.status == 400 <==> "error" in response) && (a.status == 200 <==> "error" !in response)
    ensures a.RedirectAnswer? ==>
              var uri := RedirectTarget(request, parsed);
              && |uri| < |a.location|
              && a.location[..|uri|] == uri
              && a.location[|uri|] == (if '?' in uri then '&' else '?')
              && a.location[|uri| + 1..] == urlencode(AnswerParams(response, parsed))
  {
    var actual := AnswerParams(response, parsed);
    var uri := RedirectTarget(request, parsed);
    if uri == [] || !useRedirectUri then
      JsonAnswer(actual, if "error" in response then 400 else 200)
    else
      var location := AppendQuery(uri, urlencode(actual));
      assert location[..|uri|] == uri;
      assert location[|uri| + 1..] == urlencode(actual);
      RedirectAnswer(location)
  }

  /** Appending parameters keeps the redirect on the same base, the one the
      redirect-URI policy compared; when the URI had no query, the appended
      parameters become its whole query. */
  lemma AppendQueryKeepsBase(uri: string, encoded: string)
    requires '?' !in encoded
    ensures RedirectUri.SplitBaseQuery(AppendQuery(uri, encoded)).base == RedirectUri.SplitBaseQuery(uri).base
    ensures '?' !in uri ==> RedirectUri.SplitBaseQuery(AppendQuery(uri, encoded)).query == RedirectUri.ParsedQuery(encoded)
  {
    if '?' in uri {
      assert AppendQuery(uri, encoded) == uri + ("&" + encoded);
      RPartitionAppend(uri, "&" + encoded, '?');
    } else {
      var withMark := uri + "?";
      assert AppendQuery(uri, encoded) == withMark + encoded;
      assert withMark[..|withMark| - 1] == uri;
      assert RPartition(withMark, '?') == Some((uri, []));
      RPartitionAppend(withMark, encoded, '?');
      assert [] + encoded == encoded;
    }
  }

  /** The parameters a view parses: the query for GET; otherwise the form,
      or, when there is a query, a plain dict holding the query's and then the
      form's value lists (form lists win). */
  function MergedParameters(request: HttpRequest): (r: ParamSource)
    ensures r.PlainDict? <==> request.verb != "GET" && request.get != map[]
    ensures request.verb == "GET" ==> r == QueryDictOf(request.get)
    ensures request.verb != "GET" ==>
              && r.lists.Keys == request.get.Keys + request.post.Keys
              && (forall k :: k in request.post ==> r.lists[k] == request.post[k])
              && (forall k :: k in request.get && k !in request.post ==> r.lists[k] == request.get[k])
  {
    if request.verb == "GET" then QueryDictOf(request.get)
    else if request.get != map[] then PlainDict(request.get + request.post)
    else QueryDictOf(request.post)
  }

  /** `parse_request_parameters`: a parameters class that rejects the merged
      parameters yields an `invalid_request_uri` error. */
  function ParseRequestParameters<P>(request: HttpRequest, parametersClass: ParamSource -> Result<P, string>)
    : (r: Result<P, OAuthError>)
    ensures r.Success? <==> parametersClass(MergedParameters(request)).Success?
    ensures r.Success? ==> r.value == parametersClass(MergedParameters(request)).value
    ensures r.Failure? ==> r.error.error == "invalid_request_uri"
  {
    match parametersClass(MergedParameters(request))
    case Success(p) => Success(p)
    case Failure(message) => Failure(OAuthError("invalid_request_uri", message))
  }
}

=== FILE: redirect_uri.dfy ===
/** The redirect-URI policy of an OpenID client (`check_redirect_url`): a
    candidate URI sent in an authorization request is accepted when it has no
    fragment (section 3.1.2 of RFC 6749) and one of the client's
    whitespace-separated registered URIs has the same base (the text before
    the last `?`) and a query that matches the candidate's in both directions,
    a blank registered value standing for "any value". */
module RedirectUri {
  import opened Wrappers
  import opened Strings

  /** A parsed query string: each key with its values in order of appearance
      (`parse_qs(..., keep_blank_values=True)`). */
  type Query = map<string, seq<string>>

  /** A URI cut at its last `?` (`__split_base_query`). */
  datatype SplitUri = SplitUri(base: string, query: Option<Query>)

  // ---------------------------------------------------------------------
  // Fragment detection (`urlparse(uri).fragment`)
  // ---------------------------------------------------------------------

  /** The text after the first `#`, empty when there is no `#`. */
  function Fragment(uri: string): string
  {
    match IndexOf(uri, '#')
    case None => []
    case Some(i) => uri[i + 1..]
  }

  predicate HasFragment(uri: string) {
    Fragment(uri) != []
  }

  /** A URI carries a (non-empty) fragment exactly when some `#` is followed by
      at least one character; a trailing `#` alone is an empty fragment. */
  lemma HasFragmentIff(uri: string)
    ensures HasFragment(uri) <==> exists i :: 0 <= i < |uri| - 1 && uri[i] == '#'
  {
    if exists i :: 0 <= i < |uri| - 1 && uri[i] == '#' {
      var i :| 0 <= i < |uri| - 1 && uri[i] == '#';
      var j := IndexOf(uri, '#').value;
      assert j <= i by {
        assert forall m :: 0 <= m < j ==> uri[..j][m] == uri[m];
      }
    }
  }

  // ---------------------------------------------------------------------
  // Query parsing (`parse_qs` with `keep_blank_values=True`)
  // ---------------------------------------------------------------------

  /** One `name=value` field cut at its first `=`; a field without `=` is a
      name with a blank value. */
  function Field(segment: string): (kv: (string, string))
    ensures '=' !in kv.0
    ensures '=' in segment ==> segment == kv.0 + "=" + kv.1
    ensures '=' !in segment ==> kv == (segment, "")
  {
    match SplitOnce(segment, '=')
    case None => (segment, "")
    case Some((k, v)) => (k, v)
  }

  /** The fields of a raw query: its `&`-separated segments, empty ones
      skipped. */
  function Fields(segments: seq<string>): (fields: seq<(string, string)>)
    ensures |fields| <= |segments|
    ensures forall f :: f in fields <==> exists s :: s in segments && s != [] && Field(s) == f
  {
    if segments == [] then []
    else
      var rest := Fields(segments[1..]);
      assert forall s :: s in segments <==> s == segments[0] || s in segments[1..];
      if segments[0] == [] then rest else [Field(segments[0])] + rest
  }

  /** Reference definition: the values given to `key`, in order. */
  function ValuesOf(fields: seq<(string, string)>, key: string): seq<string>
  {
    if fields == [] then []
    else
      var last := fields[|fields| - 1];
      ValuesOf(fields[..|fields| - 1], key) + (if last.0 == key then [last.1] else [])
  }

  lemma {:induction false} ValuesOfMembership(fields: seq<(string, string)>, key: string, v: string)
    ensures v in ValuesOf(fields, key) <==> (key, v) in fields
    decreases |fields|
  {
    if fields != [] {
      var init := fields[..|fields| - 1];
      ValuesOfMembership(init, key, v);
      assert fields == init + [fields[|fields| - 1]];
    }
  }

  /** Groups the fields by name, appending each value to its name's list. */
  function Collect(fields: seq<(string, string)>): (q: Query)
    ensures forall k :: k in q <==> ValuesOf(fields, k) != []
    ensures forall k :: k in q ==> q[k] == ValuesOf(fields, k)
  {
    if fields == [] then map[]
    else
      var q := Collect(fields[..|fields| - 1]);
      var (k, v) := fields[|fields| - 1];
      q[k := (if k in q then q[k] else []) + [v]]
  }

  /** `parse_qs(raw, keep_blank_values=True)` without percent-decoding. */
  function ParseQs(raw: string): (q: Query)
    ensures forall k :: k in q ==> q[k] != []
  {
    Collect(Fields(Split(raw, '&')))
  }

  /** A key is in the parsed query exactly when some non-empty segment names
      it, and a value is listed under a key exactly when a segment gives it. */
  lemma ParseQsMembership(raw: string, k: string, v: string)
    ensures k in ParseQs(raw) <==> exists s :: s in Split(raw, '&') && s != [] && Field(s).0 == k
    ensures k in ParseQs(raw) ==>
              (v in ParseQs(raw)[k] <==> exists s :: s in Split(raw, '&') && s != [] && Field(s) == (k, v))
  {
    var fields := Fields(Split(raw, '&'));
    if k in ParseQs(raw) {
      var v0 := ParseQs(raw)[k][0];
      ValuesOfMembership(fields, k, v0);
      assert (k, v0) in fields;
    } else {
      forall s | s in Split(raw, '&') && s != [] && Field(s).0 == k
        ensures false
      {
        ValuesOfMembership(fields, k, Field(s).1);
      }
    }
    ValuesOfMembership(fields, k, v);
  }

  /** The query as the Python code parses it; an empty query string stays
      falsy and is treated as no query. */
  function ParsedQuery(raw: string): Option<Query>
  {
    if raw == [] then None else Some(ParseQs(raw))
  }

  /** `__split_base_query`: the base before the last `?`, and the query after
      it when there is one. */
  function SplitBaseQuery(uri: string): (r: SplitUri)
    ensures '?' !in uri ==> r == SplitUri(uri, None)
    ensures '?' in uri ==>
              && |r.base| < |uri|
              && uri[..|r.base|] == r.base
              && uri[|r.base|] == '?'
              && '?' !in uri[|r.base| + 1..]
              && r.query == ParsedQuery(uri[|r.base| + 1..])
  {
    match RPartition(uri, '?')
    case None => SplitUri(uri, None)
    case Some((base, raw)) =>
      assert uri[..|base|] == base;
      assert uri[|base| + 1..] == raw;
      SplitUri(base, ParsedQuery(raw))
  }

  // ---------------------------------------------------------------------
  // The matching policy, stated declaratively
  // ---------------------------------------------------------------------

  /** An absent query and an empty one are treated alike by every branch of
      the check. */
  function Entries(q: Option<Query>): Query {
    match q
    case None => map[]
    case Some(m) => m
  }

  /** Registered to candidate: every registered key occurs in the candidate,
      and every non-blank registered value is among the candidate's values
      for that key. */
  predicate RegisteredPresent(registered: Query, candidate: Query) {
    forall k :: k in registered ==>
      && k in candidate
      && forall v :: v in registered[k] && v != [] ==> v in candidate[k]
  }

  /** Candidate to registered: every candidate key is registered, and each of
      its values is registered for that key unless a blank value is. */
  predicate CandidateRegistered(registered: Query, candidate: Query) {
    forall k :: k in candidate ==>
      && k in registered
      && (registered[k] != [] ==> forall v :: v in candidate[k] ==> v in registered[k] || [] in registered[k])
  }

  predicate QueryMatches(registered: Query, candidate: Query) {
    RegisteredPresent(registered, candidate) && CandidateRegistered(registered, candidate)
  }

  /** One registered entry accepts the candidate. */
  predicate EntryMatches(entry: string, candidate: string) {
    var e := SplitBaseQuery(entry);
    var c := SplitBaseQuery(candidate);
    e.base == c.base && QueryMatches(Entries(e.query), Entries(c.query))
  }

  /** The policy: no fragment, and some registered entry accepts. */
  predicate IsAuthorized(redirectUris: string, candidate: string) {
    !HasFragment(candidate) && exists e :: e in Words(redirectUris) && EntryMatches(e, candidate)
  }

  // ---------------------------------------------------------------------
  // The check as the code performs it: loops with early exits
  // ---------------------------------------------------------------------

  /** The first direction of the check (the loop over the registered query). */
  method CheckRegisteredQuery(registered: Option<Query>, candidate: Option<Query>) returns (found: bool)
    ensures found == RegisteredPresent(Entries(registered), Entries(candidate))
  {
    if registered.Some? && registered.value != map[] {
      var reg := registered.value;
      var keys := reg.Keys;
      while keys != {}
        invariant keys <= reg.Keys
        invariant forall k :: k in reg && k !in keys ==>
                    k in Entries(candidate) && forall v :: v in reg[k] && v != [] ==> v in Entries(candidate)[k]
        decreases keys
      {
        var k :| k in keys;
        if candidate.None? || candidate.value == map[] || k !in candidate.value {
          return false;
        }
        var vals := reg[k];
        var i := 0;
        while i < |vals|
          invariant 0 <= i <= |vals|
          invariant forall j :: 0 <= j < i && vals[j] != [] ==> vals[j] in candidate.value[k]
        {
          if vals[i] != [] && vals[i] !in candidate.value[k] {
            return false;
          }
          i := i + 1;
        }
        keys := keys - {k};
      }
    }
    return true;
  }

  /** The second direction of the check (the loop over the candidate query). */
  method CheckCandidateQuery(registered: Option<Query>, candidate: Option<Query>) returns (found: bool)
    ensures found == CandidateRegistered(Entries(registered), Entries(candidate))
  {
    if candidate.Some? && candidate.value != map[] {
      if registered.None? {
        return false;
      }
      var reg := registered.value;
      var cand := candidate.value;
      var keys := cand.Keys;
      while keys != {}
        invariant keys <= cand.Keys
        invariant forall k :: k in cand && k !in keys ==>
                    k in reg && (reg[k] != [] ==> forall v :: v in cand[k] ==> v in reg[k] || [] in reg[k])
        decreases keys
      {
        var k :| k in keys;
        if k !in reg {
          return false;
        }
        var vals := cand[k];
        var i := 0;
        while i < |vals|
          invariant 0 <= i <= |vals|
          invariant reg[k] != [] ==> forall j :: 0 <= j < i ==> vals[j] in reg[k] || [] in reg[k]
        {
          if reg[k] != [] {
            if vals[i] !in reg[k] && [] !in reg[k] {
              return false;
            }
          }
          i := i + 1;
        }
        keys := keys - {k};
      }
    }
    return true;
  }

  /** One iteration of the scan: the base comparison, then both directions. */
  method CheckEntry(entry: string, c: SplitUri, ghost candidate: string) returns (matches: bool)
    requires c == SplitBaseQuery(candidate)
    ensures matches == EntryMatches(entry, candidate)
  {
    var e := SplitBaseQuery(entry);
    if e.base != c.base {
      return false;
    }
    var forward := CheckRegisteredQuery(e.query, c.query);
    if !forward {
      return false;
    }
    matches := CheckCandidateQuery(e.query, c.query);
  }

  /** `check_redirect_url`: scan the registered entries in order and accept
      on the first one that matches. */
  method CheckRedirectUrl(redirectUris: string, candidate: string) returns (ok: bool)
    ensures ok == IsAuthorized(redirectUris, candidate)
    ensures HasFragment(candidate) ==> !ok
    ensures ok ==> exists e :: e in Words(redirectUris) && SplitBaseQuery(e).base == SplitBaseQuery(candidate).base
  {
    if HasFragment(candidate) {
      return false;
    }
    var c := SplitBaseQuery(candidate);
    var entries := Words(redirectUris);
    var at := FirstMatch(entries, c, candidate);
    if at < |entries| {
      assert entries[at] in entries && EntryMatches(entries[at], candidate);
      return true;
    }
    ScanRejects(redirectUris, candidate);
    return false;
  }

  /** The loop of `check_redirect_url`: the index of the first entry that
      matches, or the number of entries when none does. */
  method FirstMatch(entries: seq<string>, c: SplitUri, ghost candidate: string) returns (at: nat)
    requires c == SplitBaseQuery(candidate)
    ensures at <= |entries|
    ensures at < |entries| ==> EntryMatches(entries[at], candidate)
    ensures forall j :: 0 <= j < at ==> !EntryMatches(entries[j], candidate)
  {
    at := 0;
    while at < |entries|
      invariant at <= |entries|
      invariant forall j :: 0 <= j < at ==> !EntryMatches(entries[j], candidate)
    {
      var matches := CheckEntry(entries[at], c, candidate);
      if matches {
        return;
      }
      at := at + 1;
    }
  }

  /** The scan refuses when no entry matches. */
  lemma ScanRejects(redirectUris: string, candidate: string)
    requires forall j :: 0 <= j < |Words(redirectUris)| ==> !EntryMatches(Words(redirectUris)[j], candidate)
    ensures !IsAuthorized(redirectUris, candidate)
  {
  }

  // ---------------------------------------------------------------------
  // Properties of the policy
  // ---------------------------------------------------------------------

  /** With nothing registered (only whitespace), no candidate is accepted. */
  lemma BlankRegistrationRejects(redirectUris: string, candidate: string)
    requires AllSpace(redirectUris)
    ensures !IsAuthorized(redirectUris, candidate)
  {
    WordsOfBlank(redirectUris);
  }

  /** Only the set of registered entries matters: their order and repetition
      do not change the decision. */
  lemma SameEntriesSameDecision(first: string, second: string, candidate: string)
    requires forall e :: e in Words(first) <==> e in Words(second)
    ensures IsAuthorized(first, candidate) == IsAuthorized(second, candidate)
  {
  }

  /** Swapping two whitespace-separated parts of the registration does not
      change the decision. */
  lemma EntryOrderIrrelevant(first: string, sep: char, second: string, candidate: string)
    requires IsSpace(sep)
    ensures IsAuthorized(first + [sep] + second, candidate) == IsAuthorized(second + [sep] + first, candidate)
  {
    WordsConcat(first, sep, second);
    WordsConcat(second, sep, first);
    var ws1 := Words(first + [sep] + second);
    var ws2 := Words(second + [sep] + first);
    assert forall e :: e in ws1 <==> e in ws2;
    SameEntriesSameDecision(first + [sep] + second, second + [sep] + first, candidate);
  }

  /** A registered entry without query accepts exactly the candidates with the
      same base and no (or an empty) query; a registered query refuses a
      candidate without one. */
  lemma QuerylessEntry(entry: string, candidate: string)
    requires '?' !in entry
    ensures EntryMatches(entry, candidate) <==>
              SplitBaseQuery(candidate).base == entry && Entries(SplitBaseQuery(candidate).query) == map[]
  {
    var c := Entries(SplitBaseQuery(candidate).query);
    if c != map[] {
      var k :| k in c;
      assert !CandidateRegistered(map[], c);
    }
  }

  /** A registered query refuses a candidate without one. */
  lemma RegisteredQueryNeedsCandidateQuery(registered: Query)
    requires registered != map[]
    ensures !QueryMatches(registered, map[])
  {
    var k :| k in registered;
  }

  /** Every registered entry without a fragment authorizes itself. */
  lemma RegisteredEntryAuthorized(redirectUris: string, entry: string)
    requires entry in Words(redirectUris)
    requires !HasFragment(entry)
    ensures IsAuthorized(redirectUris, entry)
  {
    assert EntryMatches(entry, entry);
  }

  /** A registered key whose values are all blank only requires the key: the
      candidate may give it any values. */
  lemma BlankValueIsWildcard(registered: Query, candidate: Query, k: string, values: seq<string>)
    requires k in registered && registered[k] != []
    requires forall v :: v in registered[k] ==> v == []
    requires QueryMatches(registered, candidate)
    ensures QueryMatches(registered, candidate[k := values])
  {
    assert [] in registered[k] by {
      assert registered[k][0] in registered[k];
    }
  }

  /** Without blank registered values the policy is exact: the same keys, and
      for each key the same set of values (order and repetition aside). */
  lemma NoBlanksMeansSameValueSets(registered: Query, candidate: Query)
    requires forall k :: k in registered ==> registered[k] != [] && [] !in registered[k]
    ensures QueryMatches(registered, candidate) <==>
              && registered.Keys == candidate.Keys
              && forall k :: k in registered ==> (forall v :: v in registered[k] <==> v in candidate[k])
  {
  }

  // ---------------------------------------------------------------------
  // The policy on small URIs: `base?key=value` shapes
  // ---------------------------------------------------------------------

  /** Text that is a single token of a URI query: no whitespace and none of
      `#`, `?`, `&`, `=`. */
  predicate Plain(s: string) {
    NoSpace(s) && '#' !in s && '?' !in s && '&' !in s && '=' !in s
  }

  /** A non-empty query usable in a one-word registration or a candidate:
      no whitespace, `?` or `#`. */
  predicate QueryText(raw: string) {
    raw != [] && NoSpace(raw) && '#' !in raw && '?' !in raw
  }

  /** A base (the part before `?`) usable in a one-word registration. */
  predicate PlainBase(s: string) {
    s != [] && NoSpace(s) && '#' !in s && '?' !in s
  }

  lemma SplitWithQuery(base: string, raw: string)
    requires '?' !in raw
    ensures SplitBaseQuery(base + "?" + raw) == SplitUri(base, ParsedQuery(raw))
  {
    var marked := base + "?";
    assert marked[..|marked| - 1] == base;
    assert RPartition(marked, '?') == Some((base, []));
    RPartitionAppend(marked, raw, '?');
    assert [] + raw == raw;
  }

  lemma FieldOf(k: string, v: string)
    requires '=' !in k
    ensures Field(k + "=" + v) == (k, v)
  {
    IndexOfAfter(k, '=', v);
    var s := k + "=" + v;
    assert s[..|k|] == k && s[|k| + 1..] == v;
  }

  /** `k=v` parses to the one key `k` with the one value `v`. */
  lemma OneField(k: string, v: string)
    requires Plain(k) && Plain(v)
    ensures ParseQs(FieldText(k, v)) == map[k := [v]]
  {
    var s := FieldText(k, v);
    assert '&' !in s;
    assert Split(s, '&') == [s];
    FieldOf(k, v);
    assert [s][1..] == [];
    assert Fields([s]) == [(k, v)];
    assert [(k, v)][..0] == [];
    SingleKey(k, v);
  }

  /** `k1=v1&k2=v2` parses to both fields, a repeated key collecting both
      values in order. */
  lemma TwoFields(k1: string, v1: string, k2: string, v2: string)
    requires Plain(k1) && Plain(v1) && Plain(k2) && Plain(v2)
    ensures ParseQs(FieldText(k1, v1) + "&" + FieldText(k2, v2)) == Collect([(k1, v1), (k2, v2)])
  {
    var s1 := FieldText(k1, v1);
    var s2 := FieldText(k2, v2);
    assert '&' !in s1 && '&' !in s2;
    assert [s1, s2][1..] == [s2];
    assert Join([s1, s2], '&') == s1 + "&" + s2;
    SplitJoin([s1, s2], '&');
    FieldOf(k1, v1);
    FieldOf(k2, v2);
    assert [s2][1..] == [];
    assert Fields([s2]) == [(k2, v2)];
    assert Fields([s1, s2]) == [(k1, v1), (k2, v2)];
  }

  /** A one-word registration authorizes a fragment-free candidate exactly
      when that one entry matches it. */
  lemma OneEntry(entry: string, candidate: string)
    requires entry != [] && NoSpace(entry) && '#' !in candidate
    ensures IsAuthorized(entry, candidate) <==> EntryMatches(entry, candidate)
  {
    WordsOfWord(entry);
    assert IndexOf(candidate, '#') == None;
  }

  /** A URI assembled from plain pieces is one word without a fragment. */
  lemma ShapedWord(base: string, raw: string)
    requires PlainBase(base) && NoSpace(raw) && '#' !in raw
    ensures var uri := base + "?" + raw; uri != [] && NoSpace(uri) && '#' !in uri
  {
    NoSpaceAppend(base, "?");
    NoSpaceAppend(base + "?", raw);
  }

  /** `k=v` and `k1=v1&k2=v2` built from plain pieces hold no space and no `#`. */
  lemma PlainField(k: string, v: string)
    requires Plain(k) && Plain(v)
    ensures QueryText(FieldText(k, v))
  {
    NoSpaceAppend(k, "=");
    NoSpaceAppend(k + "=", v);
  }

  lemma PlainFields(k1: string, v1: string, k2: string, v2: string)
    requires Plain(k1) && Plain(v1) && Plain(k2) && Plain(v2)
    ensures QueryText(FieldText(k1, v1) + "&" + FieldText(k2, v2))
  {
    PlainField(k1, v1);
    PlainField(k2, v2);
    NoSpaceAppend(FieldText(k1, v1), "&");
    NoSpaceAppend(FieldText(k1, v1) + "&", FieldText(k2, v2));
  }

  lemma SingleKey(k: string, v: string)
    ensures Collect([(k, v)]) == map[k := [v]]
  {
    assert [(k, v)][..0] == [];
    assert Collect([(k, v)]) == map[][k := [] + [v]];
    assert [] + [v] == [v];
    assert map[][k := [v]] == map[k := [v]];
  }

  lemma RepeatedKey(k: string, x: string, y: string)
    ensures Collect([(k, x), (k, y)]) == map[k := [x, y]]
  {
    assert [(k, x), (k, y)][..1] == [(k, x)];
    SingleKey(k, x);
    assert Collect([(k, x), (k, y)]) == map[k := [x]][k := [x] + [y]];
    assert [x] + [y] == [x, y];
    assert map[k := [x]][k := [x, y]] == map[k := [x, y]];
  }

  lemma UnregisteredKey(k: string, x: string, extra: string, w: string)
    requires extra != k
    ensures !CandidateRegistered(map[k := [x]], Collect([(k, x), (extra, w)]))
  {
    assert [(k, x), (extra, w)][..1] == [(k, x)];
    SingleKey(k, x);
    assert extra in Collect([(k, x), (extra, w)]);
  }

  lemma MissingValue(k: string, x: string, y: string)
    requires x != [] && x != y
    ensures !RegisteredPresent(map[k := [x]], map[k := [y]])
  {
    assert x in map[k := [x]][k];
  }

  lemma UnregisteredValue(k: string, x: string, y: string)
    requires x != [] && x != y
    ensures !CandidateRegistered(map[k := [x]], map[k := [x, y]])
  {
    var registered := map[k := [x]];
    var candidate := map[k := [x, y]];
    assert k in candidate && registered[k] != [];
    assert y in candidate[k] && y !in registered[k] && [] !in registered[k];
  }

  /** A one-word registration `base?rawE` and a candidate `base?rawC`, both
      fragment-free, match exactly when their parsed queries do. */
  lemma ShapedMatch(base: string, rawE: string, rawC: string, qe: Query, qc: Query)
    requires PlainBase(base)
    requires QueryText(rawE) && ParseQs(rawE) == qe
    requires QueryText(rawC) && ParseQs(rawC) == qc
    ensures IsAuthorized(base + "?" + rawE, base + "?" + rawC) <==> QueryMatches(qe, qc)
  {
    SplitWithQuery(base, rawE);
    SplitWithQuery(base, rawC);
    ShapedWord(base, rawE);
    ShapedWord(base, rawC);
    OneEntry(base + "?" + rawE, base + "?" + rawC);
  }

  /** The URI `base?raw`. */
  function WithQuery(base: string, raw: string): string {
    base + "?" + raw
  }

  /** The query field `k=v`. */
  function FieldText(k: string, v: string): string {
    k + "=" + v
  }

  /** A registered blank value accepts any value for its key. */
  lemma BlankRegisteredValueAcceptsAny(base: string, k: string, v: string)
    requires PlainBase(base) && Plain(k) && Plain(v)
    ensures IsAuthorized(WithQuery(base, FieldText(k, [])), WithQuery(base, FieldText(k, v)))
  {
    var registered, candidate := map[k := [[]]], map[k := [v]];
    assert RegisteredPresent(registered, candidate);
    assert CandidateRegistered(registered, candidate);
    OneField(k, []);
    OneField(k, v);
    PlainField(k, []);
    PlainField(k, v);
    ShapedMatch(base, FieldText(k, []), FieldText(k, v), registered, candidate);
  }

  /** A candidate key that is not registered makes the candidate fail. */
  lemma UnregisteredKeyRejected(base: string, k: string, x: string, extra: string, w: string)
    requires PlainBase(base) && Plain(k) && Plain(x) && Plain(extra) && Plain(w)
    requires extra != k
    ensures !IsAuthorized(WithQuery(base, FieldText(k, x)),
                          WithQuery(base, FieldText(k, x) + "&" + FieldText(extra, w)))
  {
    OneField(k, x);
    TwoFields(k, x, extra, w);
    PlainField(k, x);
    PlainFields(k, x, extra, w);
    UnregisteredKey(k, x, extra, w);
    ShapedMatch(base, FieldText(k, x), FieldText(k, x) + "&" + FieldText(extra, w),
                map[k := [x]], Collect([(k, x), (extra, w)]));
  }

  /** A non-blank registered value must be among the candidate's values. */
  lemma RequiredValueMissingRejected(base: string, k: string, x: string, y: string)
    requires PlainBase(base) && Plain(k) && Plain(x) && Plain(y)
    requires x != [] && x != y
    ensures !IsAuthorized(WithQuery(base, FieldText(k, x)), WithQuery(base, FieldText(k, y)))
  {
    OneField(k, x);
    OneField(k, y);
    PlainField(k, x);
    PlainField(k, y);
    MissingValue(k, x, y);
    ShapedMatch(base, FieldText(k, x), FieldText(k, y), map[k := [x]], map[k := [y]]);
  }

  /** The check runs in both directions: a candidate that repeats a key with
      a value that is not registered fails, even though the registered value
      is among its values. */
  lemma ExtraValueRejected(base: string, k: string, x: string, y: string)
    requires PlainBase(base) && Plain(k) && Plain(x) && Plain(y)
    requires x != [] && x != y
    ensures !IsAuthorized(WithQuery(base, FieldText(k, x)),
                          WithQuery(base, FieldText(k, x) + "&" + FieldText(k, y)))
  {
    OneField(k, x);
    TwoFields(k, x, k, y);
    RepeatedKey(k, x, y);
    PlainField(k, x);
    PlainFields(k, x, k, y);
    UnregisteredValue(k, x, y);
    ShapedMatch(base, FieldText(k, x), FieldText(k, x) + "&" + FieldText(k, y),
                map[k := [x]], map[k := [x, y]]);
  }
}

=== FILE: strings.dfy ===
/** The handful of Python `str` operations the provider relies on, as pure
    functions on `seq<char>`: `find`, `rpartition`, `split(sep)`,
    `split(sep, 1)`, the separator-less `split()` and `startswith`. */
module Strings {
  import opened Wrappers

  /** Python's `str.isspace()` on a single character; these are the
      separators `str.split()` cuts at when no separator is given. */
  predicate IsSpace(c: char) {
    || c == ' '
    || ('\t' <= c <= '\r')
    || ('\U{1c}' <= c <= '\U{1f}')
    || c == '\U{85}' || c == '\U{a0}' || c == '\U{1680}'
    || ('\U{2000}' <= c <= '\U{200a}')
    || c == '\U{2028}' || c == '\U{2029}' || c == '\U{202f}' || c == '\U{205f}' || c == '\U{3000}'
  }

  predicate NoSpace(w: string) {
    forall i :: 0 <= i < |w| ==> !IsSpace(w[i])
  }

  lemma NoSpaceAppend(a: string, b: string)
    requires NoSpace(a) && NoSpace(b)
    ensures NoSpace(a + b)
  {
    forall i | 0 <= i < |a + b|
      ensures !IsSpace((a + b)[i])
    {
      if i >= |a| {
        assert (a + b)[i] == b[i - |a|];
      }
    }
  }

  predicate AllSpace(s: string) {
    forall i :: 0 <= i < |s| ==> IsSpace(s[i])
  }

  predicate StartsWith(s: string, prefix: string) {
    |prefix| <= |s| && s[..|prefix|] == prefix
  }

  /** `s.find(c)`: the position of the first `c`, if any. */
  function IndexOf(s: string, c: char): (r: Option<nat>)
    ensures r.None? <==> c !in s
    ensures r.Some? ==> r.value < |s| && s[r.value] == c && c !in s[..r.value]
  {
    if s == [] then None
    else if s[0] == c then Some(0)
    else
      match IndexOf(s[1..], c)
      case None => None
      case Some(i) =>
        assert s[..i + 1] == [s[0]] + s[1..][..i];
        Some(i + 1)
  }

  /** The first occurrence of `c` in `p + [c] + q` is the one after `p` when
      `p` holds none. */
  lemma IndexOfAfter(p: string, c: char, q: string)
    requires c !in p
    ensures IndexOf(p + [c] + q, c) == Some(|p|)
  {
    var s := p + [c] + q;
    assert s[|p|] == c;
    assert s[..|p|] == p;
  }

  /** `s.rpartition(c)`: the text before and after the LAST `c`, or `None`
      when `c` does not occur (Python then answers `('', '', s)`). */
  function RPartition(s: string, c: char): (r: Option<(string, string)>)
    ensures r.None? <==> c !in s
    ensures r.Some? ==> s == r.value.0 + [c] + r.value.1 && c !in r.value.1
  {
    if s == [] then None
    else if s[|s| - 1] == c then
      assert s == s[..|s| - 1] + [c] + [];
      Some((s[..|s| - 1], []))
    else
      match RPartition(s[..|s| - 1], c)
      case None =>
        assert s == s[..|s| - 1] + [s[|s| - 1]];
        None
      case Some((before, after)) =>
        assert s == s[..|s| - 1] + [s[|s| - 1]];
        Some((before, after + [s[|s| - 1]]))
  }

  /** Text without `c` appended after the last `c` only lengthens the part
      after it. */
  lemma {:induction false} RPartitionAppend(s: string, t: string, c: char)
    requires c !in t
    ensures RPartition(s + t, c) == match RPartition(s, c)
                                    case None => None
                                    case Some((before, after)) => Some((before, after + t))
    decreases |t|
  {
    if t == [] {
      assert s + t == s;
      match RPartition(s, c)
      case None =>
      case Some((before, after)) => assert after + t == after;
    } else {
      var init, last := t[..|t| - 1], t[|t| - 1];
      assert t == init + [last];
      assert s + t == (s + init) + [last];
      RPartitionAppend(s, init, c);
      RPartitionSnoc(s + init, last, c);
      match RPartition(s, c)
      case None =>
      case Some((before, after)) =>
        assert after + init + [last] == after + t;
    }
  }

  /** One more character that is not the separator extends the tail. */
  lemma RPartitionSnoc(p: string, x: char, c: char)
    requires x != c
    ensures RPartition(p + [x], c) == match RPartition(p, c)
                                      case None => None
                                      case Some((before, after)) => Some((before, after + [x]))
  {
    var u := p + [x];
    assert u[..|u| - 1] == p;
    assert u[|u| - 1] == x;
  }

  /** `s.split(c, 1)` when it yields two parts: the text before and after the
      FIRST `c`; `None` when `c` does not occur (a single part). */
  function SplitOnce(s: string, c: char): (r: Option<(string, string)>)
    ensures r.None? <==> c !in s
    ensures r.Some? ==> s == r.value.0 + [c] + r.value.1 && c !in r.value.0
  {
    match IndexOf(s, c)
    case None => None
    case Some(i) =>
      assert s == s[..i] + [c] + s[i + 1..];
      Some((s[..i], s[i + 1..]))
  }

  /** The inverse of `Split`: the pieces glued back with the separator. */
  function Join(parts: seq<string>, sep: char): string
  {
    if parts == [] then []
    else if |parts| == 1 then parts[0]
    else parts[0] + [sep] + Join(parts[1..], sep)
  }

  /** `s.split(sep)`: the maximal `sep`-free pieces, empty ones included, so
      that gluing them back gives `s`. */
  function Split(s: string, sep: char): (parts: seq<string>)
    ensures |parts| >= 1
    ensures forall i :: 0 <= i < |parts| ==> sep !in parts[i]
    ensures Join(parts, sep) == s
    decreases |s|
  {
    match IndexOf(s, sep)
    case None => [s]
    case Some(i) =>
      var rest := Split(s[i + 1..], sep);
      assert s == s[..i] + [sep] + s[i + 1..];
      assert ([s[..i]] + rest)[1..] == rest;
      [s[..i]] + rest
  }

  /** Splitting undoes joining when no piece holds the separator. */
  lemma {:induction false} SplitJoin(parts: seq<string>, sep: char)
    requires |parts| >= 1
    requires forall i :: 0 <= i < |parts| ==> sep !in parts[i]
    ensures Split(Join(parts, sep), sep) == parts
    decreases |parts|
  {
    if |parts| > 1 {
      var first := parts[0];
      var rest := Join(parts[1..], sep);
      var s := first + [sep] + rest;
      assert Join(parts, sep) == s;
      IndexOfAfter(first, sep, rest);
      assert s[..|first|] == first;
      assert s[|first| + 1..] == rest;
      assert Split(s, sep) == [first] + Split(rest, sep);
      SplitJoin(parts[1..], sep);
      assert parts == [first] + parts[1..];
    }
  }

  /** Length of the whitespace-free prefix of `s`. */
  function SpaceIndex(s: string): (n: nat)
    ensures n <= |s|
    ensures forall i :: 0 <= i < n ==> !IsSpace(s[i])
    ensures n < |s| ==> IsSpace(s[n])
  {
    if s == [] || IsSpace(s[0]) then 0 else 1 + SpaceIndex(s[1..])
  }

  /** `s.split()`: the maximal runs of non-whitespace characters, in order. */
  function Words(s: string): (ws: seq<string>)
    ensures forall i :: 0 <= i < |ws| ==> ws[i] != [] && NoSpace(ws[i])
    decreases |s|
  {
    if s == [] then []
    else if IsSpace(s[0]) then Words(s[1..])
    else
      var n := SpaceIndex(s);
      [s[..n]] + Words(s[n..])
  }

  /** A non-empty whitespace-free string is one word. */
  lemma WordsOfWord(w: string)
    requires w != [] && NoSpace(w)
    ensures Words(w) == [w]
  {
    assert SpaceIndex(w) == |w|;
    assert w[..|w|] == w;
  }

  /** A string of whitespace only holds no word. */
  lemma {:induction false} WordsOfBlank(s: string)
    requires AllSpace(s)
    ensures Words(s) == []
    decreases |s|
  {
    if s != [] {
      WordsOfBlank(s[1..]);
    }
  }

  /** A whitespace character separates: the words of `a`, then those of `b`. */
  lemma {:induction false} WordsConcat(a: string, c: char, b: string)
    requires IsSpace(c)
    ensures Words(a + [c] + b) == Words(a) + Words(b)
    decreases |a|
  {
    var s := a + [c] + b;
    if a == [] {
      assert s[1..] == b;
    } else if IsSpace(a[0]) {
      assert s[1..] == a[1..] + [c] + b;
      WordsConcat(a[1..], c, b);
    } else {
      var n := SpaceIndex(s);
      assert n == SpaceIndex(a) by {
        assert forall i :: 0 <= i < |a| ==> s[i] == a[i];
        assert s[|a|] == c;
      }
      assert s[..n] == a[..n];
      assert s[n..] == a[n..] + [c] + b;
      WordsConcat(a[n..], c, b);
    }
  }
}

=== FILE: token_endpoint.dfy ===
/** The decisions of the token endpoint (`TokenRequestView`, section 4.1.3 of
    RFC 6749): which requests are served, how the client authenticates
    (section 2.3.1 of RFC 6749), which grant is processed, when the
    `redirect_uri` of the token request agrees with the authorization, when a
    refresh token is still usable, and the claims of the ID token.

    Database rows are sequences searched the way `objects.get` searches them;
    `OAuthError` becomes a `Failure` value; password checking, token hashing,
    decoding of Basic credentials and of authorization codes are uninterpreted
    functions of the `Store`. */
module TokenEndpoint {
  import opened Wrappers
  import opened Strings
  import opened OAuthViews
  import Jwt

  /** `CLIENT_AUTH_TYPE_BASIC`, `CLIENT_AUTH_TYPE_POST`, `CLIENT_AUTH_TYPE_NONE`. */
  datatype AuthType = BasicAuth | PostAuth | NoAuth

  /** A registered client, as far as the endpoint reads it. */
  datatype Client = Client(clientId: string, username: string, authType: AuthType)

  /** The token request's parameters; a missing one is the empty string, a
      missing `state` attribute is `None`. */
  datatype TokenParameters = TokenParameters(
    grantType: set<string>,
    code: string,
    refreshToken: string,
    clientId: string,
    clientSecret: string,
    redirectUri: string,
    state: Option<string>)

  /** What the authorization step recorded and the code carries. */
  datatype AuthenticationParameters = AuthenticationParameters(username: string, redirectUri: string, nonce: string)

  /** A stored token: the hash it is found by, the `client_id` of the client it
      was created for, its expiration (seconds since the epoch), and the data
      of its root access token. */
  datatype StoredToken = StoredToken(tokenHash: string, clientId: string, expiration: int,
                                     root: Option<AuthenticationParameters>)

  /** The database and the helpers the view calls without this model seeing
      their code. */
  datatype Store = Store(
    clients: seq<Client>,
    tokens: seq<StoredToken>,
    checkPassword: (Client, string) -> bool,
    tokenHash: string -> string,
    decodeBasic: string -> Option<string>,
    unpackCode: string -> Option<AuthenticationParameters>,
    parseParameters: ParamSource -> Result<TokenParameters, string>)

  /** How a request fails: with an `OAuthError`, or with any other exception,
      which the view's catch-all handler answers as `unknown_error`. */
  datatype Failure = Rejected(err: OAuthError) | Unexpected

  /** What the endpoint does with a request: refuse the HTTP method, answer an
      error, or issue tokens for the client and the authorization. */
  datatype Outcome =
    | MethodNotAllowed
    | Failed(failure: Failure)
    | Granted(client: Client, auth: AuthenticationParameters)

  /** The result of `objects.get(field=value)`. */
  datatype Lookup<T> = Found(row: T) | DoesNotExist | MultipleObjectsReturned

  /** The token endpoint never redirects. */
  const UseRedirectUri: bool := false

  const DefaultAccessTokenTtl: int := 3600
  const DefaultRefreshTokenTtl: int := 3600 * 10

  // ---------------------------------------------------------------------
  // Rows
  // ---------------------------------------------------------------------

  function Matching<T(!new)>(rows: seq<T>, field: T -> string, value: string): (m: seq<T>)
    ensures forall x :: x in m <==> x in rows && field(x) == value
  {
    if rows == [] then []
    else
      var rest := Matching(rows[1..], field, value);
      assert forall x :: x in rows <==> x == rows[0] || x in rows[1..];
      if field(rows[0]) == value then [rows[0]] + rest else rest
  }

  /** Two distinct rows have the field set to the value. */
  predicate TwoMatches<T>(rows: seq<T>, field: T -> string, value: string) {
    exists i, j :: 0 <= i < j < |rows| && field(rows[i]) == value && field(rows[j]) == value
  }

  /** At least two rows match exactly when two positions do. */
  lemma {:induction false} MatchingTwice<T(!new)>(rows: seq<T>, field: T -> string, value: string)
    ensures |Matching(rows, field, value)| >= 2 <==> TwoMatches(rows, field, value)
    decreases |rows|
  {
    if rows != [] {
      var tail := rows[1..];
      var rest := Matching(tail, field, value);
      MatchingTwice(tail, field, value);
      if TwoMatches(tail, field, value) {
        var i, j :| 0 <= i < j < |tail| && field(tail[i]) == value && field(tail[j]) == value;
        assert rows[i + 1] == tail[i] && rows[j + 1] == tail[j];
      }
      if TwoMatches(rows, field, value) {
        var i, j :| 0 <= i < j < |rows| && field(rows[i]) == value && field(rows[j]) == value;
        assert tail[j - 1] == rows[j] && tail[j - 1] in tail;
        if i > 0 {
          assert tail[i - 1] == rows[i];
          assert TwoMatches(tail, field, value);
        } else {
          assert tail[j - 1] in rest;
        }
      }
      if field(rows[0]) == value && |rest| >= 1 {
        assert rest[0] in rest;
        var k :| 0 <= k < |tail| && tail[k] == rest[0];
        assert rows[k + 1] == tail[k];
        assert TwoMatches(rows, field, value);
      }
    }
  }

  /** `objects.get`: the one row whose field has the value. */
  function Get<T(!new)>(rows: seq<T>, field: T -> string, value: string): (r: Lookup<T>)
    ensures r.DoesNotExist? <==> forall x :: x in rows ==> field(x) != value
    ensures r.MultipleObjectsReturned? <==> TwoMatches(rows, field, value)
    ensures r.Found? ==> r.row in rows && field(r.row) == value
    ensures r.Found? ==> forall x :: x in rows && field(x) == value ==> x == r.row
  {
    var m := Matching(rows, field, value);
    MatchingTwice(rows, field, value);
    if |m| == 0 then DoesNotExist
    else if |m| == 1 then
      assert m[0] in m;
      Found(m[0])
    else
      assert m[0] in m;
      MultipleObjectsReturned
  }

  function ClientId(c: Client): string { c.clientId }
  function ClientUsername(c: Client): string { c.username }
  function TokenHash(t: StoredToken): string { t.tokenHash }

  // ---------------------------------------------------------------------
  // Client authentication
  // ---------------------------------------------------------------------

  predicate HasBasicHeader(authorization: string) {
    authorization != [] && StartsWith(authorization, "Basic ")
  }

  /** The `username:password` pair of a Basic header, when it decodes and has a
      colon. */
  function BasicCredentials(authorization: string, store: Store): (r: Option<(string, string)>)
    requires HasBasicHeader(authorization)
    ensures r.Some? ==> store.decodeBasic(authorization[6..]) == Some(r.value.0 + ":" + r.value.1)
    ensures r.Some? ==> ':' !in r.value.0
    ensures r.None? <==>
              store.decodeBasic(authorization[6..]).None? || ':' !in store.decodeBasic(authorization[6..]).value
  {
    match store.decodeBasic(authorization[6..])
    case None => None
    case Some(decoded) => SplitOnce(decoded, ':')
  }

  /** `authenticate_with_http_basic`. */
  function AuthenticateWithHttpBasic(authorization: string, p: TokenParameters, store: Store): (r: Result<Client, Failure>)
    requires HasBasicHeader(authorization)
    ensures r.Success? ==>
              && r.value in store.clients
              && r.value.authType == BasicAuth
              && BasicCredentials(authorization, store).Some?
              && r.value.username == BasicCredentials(authorization, store).value.0
              && store.checkPassword(r.value, BasicCredentials(authorization, store).value.1)
              && (p.clientId != [] ==> r.value.clientId == p.clientId)
    ensures r.Failure? && r.error.Rejected? ==> r.error.err.error in {"unauthorized_client", "invalid_request"}
    ensures forall username, password, c ::
              && BasicCredentials(authorization, store) == Some((username, password))
              && Get(store.clients, ClientUsername, username) == Found(c)
              && store.checkPassword(c, password)
              && (p.clientId == [] || c.clientId == p.clientId)
              && c.authType == BasicAuth
              ==> r == Success(c)
    ensures BasicCredentials(authorization, store).None? ==> r == Failure(Unexpected)
    ensures BasicCredentials(authorization, store).Some? ==>
              var credentials := BasicCredentials(authorization, store).value;
              var found := Get(store.clients, ClientUsername, credentials.0);
              && (found.DoesNotExist? ==>
                    r == Failure(Rejected(OAuthError("unauthorized_client", "Bad username or password"))))
              && (found.MultipleObjectsReturned? ==> r == Failure(Unexpected))
              && (found.Found? && !store.checkPassword(found.row, credentials.1) ==>
                    r == Failure(Rejected(OAuthError("unauthorized_client", "Bad username or password"))))
              && (found.Found? && store.checkPassword(found.row, credentials.1) &&
                  p.clientId != [] && found.row.clientId != p.clientId ==>
                    r == Failure(Rejected(OAuthError("invalid_request", "client_id does not match with authorized client"))))
              && (found.Found? && store.checkPassword(found.row, credentials.1) &&
                  (p.clientId == [] || found.row.clientId == p.clientId) && found.row.authType != BasicAuth ==>
                    r == Failure(Rejected(OAuthError("invalid_request", "Used HTTP Basic but client configured to different auth"))))
  {
    match BasicCredentials(authorization, store)
    case None => Failure(Unexpected)
    case Some((username, password)) =>
      match Get(store.clients, ClientUsername, username)
      case DoesNotExist => Failure(Rejected(OAuthError("unauthorized_client", "Bad username or password")))
      case MultipleObjectsReturned => Failure(Unexpected)
      case Found(client) =>
        if !store.checkPassword(client, password) then
          Failure(Rejected(OAuthError("unauthorized_client", "Bad username or password")))
        else if p.clientId != [] && client.clientId != p.clientId then
          Failure(Rejected(OAuthError("invalid_request", "client_id does not match with authorized client")))
        else if client.authType != BasicAuth then
          Failure(Rejected(OAuthError("invalid_request", "Used HTTP Basic but client configured to different auth")))
        else Success(client)
  }

  /** `authenticate_with_client_secret`. */
  function AuthenticateWithClientSecret(p: TokenParameters, store: Store): (r: Result<Client, Failure>)
    ensures r.Success? ==>
              && r.value in store.clients
              && r.value.clientId == p.clientId
              && r.value.authType == PostAuth
              && store.checkPassword(r.value, p.clientSecret)
    ensures p.clientId == [] ==> r.Failure? && r.error == Rejected(OAuthError("invalid_request", "Need client_id when using client_secret"))
    ensures r.Failure? && r.error.Rejected? ==> r.error.err.error in {"unauthorized_client", "invalid_request"}
    ensures forall c ::
              && p.clientId != []
              && Get(store.clients, ClientId, p.clientId) == Found(c)
              && c.authType == PostAuth
              && store.checkPassword(c, p.clientSecret)
              ==> r == Success(c)
    ensures p.clientId != [] ==>
              var found := Get(store.clients, ClientId, p.clientId);
              && (found.DoesNotExist? ==>
                    r == Failure(Rejected(OAuthError("unauthorized_client", "Bad client_id or client_secret"))))
              && (found.MultipleObjectsReturned? ==> r == Failure(Unexpected))
              && (found.Found? && found.row.authType != PostAuth ==>
                    r == Failure(Rejected(OAuthError("invalid_request", "Client not configured to use POST authentication"))))
              && (found.Found? && found.row.authType == PostAuth && !store.checkPassword(found.row, p.clientSecret) ==>
                    r == Failure(Rejected(OAuthError("unauthorized_client", "Bad client_id or client_secret"))))
  {
    if p.clientId == [] then
      Failure(Rejected(OAuthError("invalid_request", "Need client_id when using client_secret")))
    else
      match Get(store.clients, ClientId, p.clientId)
      case DoesNotExist => Failure(Rejected(OAuthError("unauthorized_client", "Bad client_id or client_secret")))
      case MultipleObjectsReturned => Failure(Unexpected)
      case Found(client) =>
        if client.authType != PostAuth then
          Failure(Rejected(OAuthError("invalid_request", "Client not configured to use POST authentication")))
        else if store.checkPassword(client, p.clientSecret) then Success(client)
        else Failure(Rejected(OAuthError("unauthorized_client", "Bad client_id or client_secret")))
  }

  /** `try_null_authentication`: the client named by `client_id`, when it is
      configured to authenticate with nothing. */
  function TryNullAuthentication(p: TokenParameters, store: Store): (r: Result<Option<Client>, Failure>)
    ensures r.Success? && r.value.Some? ==>
              r.value.value in store.clients && r.value.value.clientId == p.clientId && r.value.value.authType == NoAuth
    ensures r.Success? ==>
              (r.value.None? <==>
                 p.clientId == [] || forall c :: c in store.clients && c.clientId == p.clientId ==> c.authType != NoAuth)
    ensures r.Failure? <==> p.clientId != [] && Get(store.clients, ClientId, p.clientId).MultipleObjectsReturned?
    ensures forall c ::
              p.clientId != [] && Get(store.clients, ClientId, p.clientId) == Found(c) && c.authType == NoAuth
              ==> r == Success(Some(c))
  {
    if p.clientId == [] then Success(None)
    else
      match Get(store.clients, ClientId, p.clientId)
      case DoesNotExist => Success(None)
      case MultipleObjectsReturned => Failure(Unexpected)
      case Found(client) => if client.authType != NoAuth then Success(None) else Success(Some(client))
  }

  /** The method a request authenticates with, in the order the view tries
      them: a Basic header, then `client_secret`, then nothing. */
  function MethodUsed(authorization: string, p: TokenParameters): AuthType {
    if HasBasicHeader(authorization) then BasicAuth
    else if p.clientSecret != [] then PostAuth
    else NoAuth
  }

  /** `authenticate_client`: a client is only authenticated with the method it
      is configured for, never against a different `client_id`, and, unless
      it is configured for no authentication, only with a checked password. */
  function AuthenticateClient(authorization: string, p: TokenParameters, store: Store): (r: Result<Client, Failure>)
    ensures r.Success? ==> r.value in store.clients
    ensures r.Success? ==> r.value.authType == MethodUsed(authorization, p)
    ensures r.Success? && p.clientId != [] ==> r.value.clientId == p.clientId
    ensures r.Success? && r.value.authType == PostAuth ==> store.checkPassword(r.value, p.clientSecret)
    ensures r.Success? && r.value.authType == BasicAuth ==>
              && BasicCredentials(authorization, store).Some?
              && store.checkPassword(r.value, BasicCredentials(authorization, store).value.1)
    ensures MethodUsed(authorization, p) == NoAuth && p.clientId == [] ==>
              r == Failure(Rejected(OAuthError("unsupported_authentication_method",
                                               "Only HTTP Basic auth or client_secret is supported")))
    ensures MethodUsed(authorization, p) == NoAuth && TryNullAuthentication(p, store) == Success(None) ==>
              r == Failure(Rejected(OAuthError("unsupported_authentication_method",
                                               "Only HTTP Basic auth or client_secret is supported")))
    ensures MethodUsed(authorization, p) == BasicAuth ==> r == AuthenticateWithHttpBasic(authorization, p, store)
    ensures MethodUsed(authorization, p) == PostAuth ==> r == AuthenticateWithClientSecret(p, store)
    ensures MethodUsed(authorization, p) == NoAuth && p.clientId != [] ==>
              match TryNullAuthentication(p, store)
              case Failure(f) => r == Failure(f)
              case Success(Some(c)) => r == Success(c)
              case Success(None) => r.Failure?
  {
    if HasBasicHeader(authorization) then AuthenticateWithHttpBasic(authorization, p, store)
    else if p.clientSecret != [] then AuthenticateWithClientSecret(p, store)
    else
      var unsupported := Failure(Rejected(OAuthError("unsupported_authentication_method",
                                                     "Only HTTP Basic auth or client_secret is supported")));
      if p.clientId != [] then
        match TryNullAuthentication(p, store)
        case Failure(f) => Failure(f)
        case Success(None) => unsupported
        case Success(Some(client)) => Success(client)
      else unsupported
  }

  // ---------------------------------------------------------------------
  // Grants
  // ---------------------------------------------------------------------

  /** `validate_redirect_uri`: the token request must repeat the authorization
      request's `redirect_uri` exactly, and give none when that gave none. */
  function ValidateRedirectUri(auth: AuthenticationParameters, p: TokenParameters): (r: Option<OAuthError>)
    ensures r.None? <==> auth.redirectUri == p.redirectUri
    ensures r.Some? ==> r.value.error == "invalid_request_uri"
  {
    if auth.redirectUri != [] && auth.redirectUri != p.redirectUri then
      Some(OAuthError("invalid_request_uri", "redirect_uri does not match the one used in /authorize endpoint"))
    else if auth.redirectUri == [] && p.redirectUri != [] then
      Some(OAuthError("invalid_request_uri", "redirect_uri not used in authentication but passed for token"))
    else None
  }

  /** `process_authorization_code_grant_type`, up to issuing tokens. */
  function ProcessAuthorizationCode(p: TokenParameters, client: Client, store: Store): (r: Outcome)
    ensures r.MethodNotAllowed? == false
    ensures r.Granted? ==>
              && r.client == client
              && p.code != []
              && store.unpackCode(p.code) == Some(r.auth)
              && r.auth.redirectUri == p.redirectUri
    ensures p.code == [] ==> r.Failed? && r.failure.Rejected? && r.failure.err.error == "invalid_request"
    ensures p.code != [] && store.unpackCode(p.code).None? ==>
              r.Failed? && r.failure.Rejected? && r.failure.err.error == "unauthorized_client"
    ensures p.code != [] && store.unpackCode(p.code).Some? ==>
              var auth := store.unpackCode(p.code).value;
              && (auth.redirectUri == p.redirectUri ==> r == Granted(client, auth))
              && (auth.redirectUri != p.redirectUri ==>
                    r.Failed? && r.failure.Rejected? && r.failure.err.error == "invalid_request_uri")
  {
    if p.code == [] then
      Failed(Rejected(OAuthError("invalid_request", "Required parameter with name \"code\" is not present")))
    else
      match store.unpackCode(p.code)
      case None => Failed(Rejected(OAuthError("unauthorized_client", "Invalid authorization code")))
      case Some(auth) =>
        match ValidateRedirectUri(auth, p)
        case Some(err) => Failed(Rejected(err))
        case None => Granted(client, auth)
  }

  /** `process_refresh_token` as written, up to issuing tokens: the token must
      be known and its expiration not before `now`; which client it was issued
      to is not looked at. */
  function ProcessRefreshToken(p: TokenParameters, client: Client, store: Store, now: int): (r: Outcome)
    ensures r.MethodNotAllowed? == false
    ensures r.Granted? ==>
              && r.client == client
              && exists t :: t in store.tokens && t.tokenHash == store.tokenHash(p.refreshToken)
                             && now <= t.expiration && t.root == Some(r.auth)
    ensures p.refreshToken == [] ==> r.Failed? && r.failure.Rejected? && r.failure.err.error == "invalid_request"
    ensures p.refreshToken != [] && (forall t :: t in store.tokens ==> t.tokenHash != store.tokenHash(p.refreshToken)) ==>
              r == Failed(Rejected(OAuthError("invalid_grant", "No such token was found")))
    ensures (exists t :: t in store.tokens && t.tokenHash == store.tokenHash(p.refreshToken) && t.expiration < now) ==>
              !r.Granted?
    ensures p.refreshToken != [] ==>
              match Get(store.tokens, TokenHash, store.tokenHash(p.refreshToken))
              case Found(t) =>
                && (t.expiration < now ==> r == Failed(Rejected(OAuthError("invalid_grant", "Refresh token expired"))))
                && (now <= t.expiration && t.root.Some? ==> r == Granted(client, t.root.value))
                && (now <= t.expiration && t.root.None? ==> r == Failed(Unexpected))
              case _ => !r.Granted?
  {
    if p.refreshToken == [] then
      Failed(Rejected(OAuthError("invalid_request", "Required parameter with name \"refresh_token\" is not present")))
    else
      match Get(store.tokens, TokenHash, store.tokenHash(p.refreshToken))
      case DoesNotExist => Failed(Rejected(OAuthError("invalid_grant", "No such token was found")))
      case MultipleObjectsReturned => Failed(Unexpected)
      case Found(t) =>
        if t.expiration < now then Failed(Rejected(OAuthError("invalid_grant", "Refresh token expired")))
        else
          match t.root
          case None => Failed(Unexpected)
          case Some(auth) => Granted(client, auth)
  }

  /** As written, a client can redeem a refresh token issued to another
      client: here client `b` refreshes the unexpired token of client `a`. */
  lemma RefreshTokenOfAnotherClientAccepted()
    ensures var auth := AuthenticationParameters("alice", [], []);
            var token := StoredToken("h", "a", 100, Some(auth));
            var store := Store([], [token], (c, pw) => true, rt => "h", h => None, code => None,
                               m => Failure("unused"));
            var p := TokenParameters({"refresh_token"}, [], "rt", "b", [], [], None);
            var client := Client("b", "b", NoAuth);
            && token.clientId != client.clientId
            && ProcessRefreshToken(p, client, store, 0) == Granted(client, auth)
  {
    var auth := AuthenticationParameters("alice", [], []);
    var token := StoredToken("h", "a", 100, Some(auth));
    assert Matching([token], TokenHash, "h") == [token];
  }

  /** `process_refresh_token` with the check section 6 of RFC 6749 requires:
      the refresh token must have been issued to the authenticated client,
      otherwise `invalid_grant`. */
  function ProcessRefreshTokenBound(p: TokenParameters, client: Client, store: Store, now: int): (r: Outcome)
    ensures r.MethodNotAllowed? == false
    ensures r.Granted? ==>
              && r.client == client
              && exists t :: t in store.tokens && t.tokenHash == store.tokenHash(p.refreshToken)
                             && now <= t.expiration && t.clientId == client.clientId && t.root == Some(r.auth)
    ensures (exists t :: t in store.tokens && t.tokenHash == store.tokenHash(p.refreshToken)
                         && t.clientId != client.clientId) ==>
              !r.Granted?
  {
    if p.refreshToken == [] then ProcessRefreshToken(p, client, store, now)
    else
      match Get(store.tokens, TokenHash, store.tokenHash(p.refreshToken))
      case Found(t) =>
        if t.clientId != client.clientId then
          Failed(Rejected(OAuthError("invalid_grant", "Refresh token was issued to another client")))
        else ProcessRefreshToken(p, client, store, now)
      case _ => ProcessRefreshToken(p, client, store, now)
  }

  /** The added check changes nothing for a client presenting its own
      refresh token. */
  lemma BoundAgreesOnOwnTokens(p: TokenParameters, client: Client, store: Store, now: int)
    requires forall t :: t in store.tokens && t.tokenHash == store.tokenHash(p.refreshToken) ==>
                           t.clientId == client.clientId
    ensures ProcessRefreshTokenBound(p, client, store, now) == ProcessRefreshToken(p, client, store, now)
  {
  }

  /** `dispatch`: the HTTP method, then parameter parsing, then client
      authentication, then the grant type. */
  function Dispatch(request: HttpRequest, store: Store, now: int): (r: Outcome)
    ensures r.MethodNotAllowed? <==> request.verb != "GET" && request.verb != "POST"
    ensures r.Granted? ==>
              var p := store.parseParameters(MergedParameters(request));
              && p.Success?
              && (p.value.grantType == {"authorization_code"} || p.value.grantType == {"refresh_token"})
              && AuthenticateClient(request.authorization, p.value, store) == Success(r.client)
    ensures var p := ParseRequestParameters(request, store.parseParameters);
            && r.Failed? && p.Success?
            && AuthenticateClient(request.authorization, p.value, store).Success?
            && p.value.grantType != {"authorization_code"} && p.value.grantType != {"refresh_token"}
            ==> r.failure == Rejected(OAuthError("invalid_request_uri", "Invalid grant type"))
    ensures request.verb == "GET" || request.verb == "POST" ==>
              match ParseRequestParameters(request, store.parseParameters)
              case Failure(e) => r == Failed(Rejected(e))
              case Success(p) =>
                match AuthenticateClient(request.authorization, p, store)
                case Failure(f) => r == Failed(f)
                case Success(client) =>
                  && (p.grantType == {"authorization_code"} ==> r == ProcessAuthorizationCode(p, client, store))
                  && (p.grantType == {"refresh_token"} ==> r == ProcessRefreshTokenBound(p, client, store, now))
  {
    if request.verb != "GET" && request.verb != "POST" then MethodNotAllowed
    else
      match ParseRequestParameters(request, store.parseParameters)
      case Failure(e) => Failed(Rejected(e))
      case Success(p) =>
        match AuthenticateClient(request.authorization, p, store)
        case Failure(f) => Failed(f)
        case Success(client) =>
          if p.grantType == {"authorization_code"} then ProcessAuthorizationCode(p, client, store)
          else if p.grantType == {"refresh_token"} then ProcessRefreshTokenBound(p, client, store, now)
          else Failed(Rejected(OAuthError("invalid_request_uri", "Invalid grant type")))
  }

  // ---------------------------------------------------------------------
  // Answers
  // ---------------------------------------------------------------------

  /** The parsed parameters as `oauth_send_answer` consults them. */
  function AnswerParameters(p: TokenParameters): RequestParameters {
    RequestParameters(p.redirectUri, p.state)
  }

  /** The tokens created for a grant (`OpenIDToken.create_token`, `create_id_token`). */
  datatype IssuedTokens = IssuedTokens(accessToken: string, refreshToken: string, idToken: string)

  /** `OPENID_DEFAULT_ACCESS_TOKEN_TTL`, 3600 seconds unless configured. */
  function AccessTokenTtl(configured: Option<int>): int {
    configured.GetOr(DefaultAccessTokenTtl)
  }

  /** `OPENID_DEFAULT_REFRESH_TOKEN_TTL`, ten hours unless configured. */
  function RefreshTokenTtl(configured: Option<int>): int {
    configured.GetOr(DefaultRefreshTokenTtl)
  }

  /** The parameters of a successful token response (section 5.1 of RFC 6749). */
  function TokenResponse(tokens: IssuedTokens, accessTtl: int): Params {
    map["access_token" := Text(tokens.accessToken),
        "token_type" := Text("Bearer"),
        "refresh_token" := Text(tokens.refreshToken),
        "expires_in" := Int(accessTtl),
        "id_token" := Text(tokens.idToken)]
  }

  /** The error parameters the view answers an exception with. */
  function ErrorResponse(f: Failure): Params {
    match f
    case Rejected(e) => map["error" := Text(e.error), "error_description" := Text(e.description)]
    case Unexpected => map["error" := Text("unknown_error"), "error_description" := Text("Unknown error occurred, check the logs")]
  }

  /** The parsed parameters the answer sees: none when parsing failed. */
  function ParsedForAnswer(request: HttpRequest, store: Store): Option<RequestParameters> {
    match ParseRequestParameters(request, store.parseParameters)
    case Success(p) => Some(AnswerParameters(p))
    case Failure(_) => None
  }

  /** An error answer: always a JSON body with status 400. */
  function ErrorAnswer(request: HttpRequest, parsed: Option<RequestParameters>, f: Failure,
                       urlencode: Params -> string): (a: Answer)
    ensures a.JsonAnswer? && a.status == 400
    ensures "error" in a.body && a.body["error"] == ErrorResponse(f)["error"]
  {
    OAuthSendAnswer(request, parsed, UseRedirectUri, ErrorResponse(f), urlencode)
  }

  /** A token answer: always a JSON body with status 200. */
  function GrantAnswer(request: HttpRequest, parsed: Option<RequestParameters>, tokens: IssuedTokens,
                       accessTtl: int, urlencode: Params -> string): (a: Answer)
    ensures a.JsonAnswer? && a.status == 200
    ensures {"access_token", "token_type", "refresh_token", "expires_in", "id_token"} <= a.body.Keys
    ensures a.body["access_token"] == Text(tokens.accessToken) && a.body["refresh_token"] == Text(tokens.refreshToken)
    ensures a.body["id_token"] == Text(tokens.idToken)
    ensures a.body["token_type"] == Text("Bearer") && a.body["expires_in"] == Int(accessTtl)
  {
    OAuthSendAnswer(request, parsed, UseRedirectUri, TokenResponse(tokens, accessTtl), urlencode)
  }

  datatype Response = BadRequest(message: string) | Reply(answer: Answer)

  /** The answer to one dispatch outcome: the view's `get` after `dispatch`
      returned, with `issue` standing for the token creation. */
  function AnswerOutcome(request: HttpRequest, store: Store, d: Outcome, accessTtl: int, refreshTtl: int,
                         issue: (Client, AuthenticationParameters, int, int) -> Option<IssuedTokens>,
                         urlencode: Params -> string): (r: Response)
    ensures r.BadRequest? <==> d.MethodNotAllowed?
    ensures r.Reply? ==> r.answer.JsonAnswer?
    ensures r.Reply? ==>
              (r.answer.status == 400 <==> d.Failed? || (d.Granted? && issue(d.client, d.auth, accessTtl, refreshTtl).None?))
    ensures d.Failed? ==>
              r.Reply? && "error" in r.answer.body && r.answer.body["error"] == ErrorResponse(d.failure)["error"]
    ensures d.Granted? ==>
              match issue(d.client, d.auth, accessTtl, refreshTtl)
              case None =>
                r.Reply? && "error" in r.answer.body && r.answer.body["error"] == Text("unknown_error")
              case Some(tokens) =>
                && r.Reply? && r.answer.status == 200
                && "token_type" in r.answer.body && "expires_in" in r.answer.body && "access_token" in r.answer.body
                && r.answer.body["token_type"] == Text("Bearer")
                && r.answer.body["expires_in"] == Int(accessTtl)
                && r.answer.body["access_token"] == Text(tokens.accessToken)
  {
    match d
    case MethodNotAllowed => BadRequest("Only GET or POST are supported on OpenID endpoint")
    case Failed(f) => Reply(ErrorAnswer(request, ParsedForAnswer(request, store), f, urlencode))
    case Granted(client, auth) =>
      match issue(client, auth, accessTtl, refreshTtl)
      case None => Reply(ErrorAnswer(request, ParsedForAnswer(request, store), Unexpected, urlencode))
      case Some(tokens) =>
        Reply(GrantAnswer(request, ParsedForAnswer(request, store), tokens, accessTtl, urlencode))
  }

  /** The HTTP response of the token endpoint. `issue` stands for
      `generate_tokens_and_oauth_response` up to the answer: it looks up the
      user, creates the access and refresh tokens with the given lifetimes
      and issues the ID token, and yields nothing when any of that raises, in
      which case the catch-all handler answers `unknown_error`. `urlencode`
      is left uninterpreted. */
  function Respond(request: HttpRequest, store: Store, now: int, accessTtl: Option<int>, refreshTtl: Option<int>,
                   issue: (Client, AuthenticationParameters, int, int) -> Option<IssuedTokens>,
                   urlencode: Params -> string): (r: Response)
    ensures r.BadRequest? <==> request.verb != "GET" && request.verb != "POST"
    ensures r.Reply? ==> r.answer.JsonAnswer?
    ensures r.Reply? ==>
              (r.answer.status == 400 <==>
                 || Dispatch(request, store, now).Failed?
                 || (Dispatch(request, store, now).Granted? &&
                     issue(Dispatch(request, store, now).client, Dispatch(request, store, now).auth,
                           AccessTokenTtl(accessTtl), RefreshTokenTtl(refreshTtl)).None?))
    ensures r.Reply? && Dispatch(request, store, now).Failed? ==>
              "error" in r.answer.body && r.answer.body["error"] == ErrorResponse(Dispatch(request, store, now).failure)["error"]
    ensures r.Reply? && Dispatch(request, store, now).Granted? ==>
              var d := Dispatch(request, store, now);
              match issue(d.client, d.auth, AccessTokenTtl(accessTtl), RefreshTokenTtl(refreshTtl))
              case None =>
                "error" in r.answer.body && r.answer.body["error"] == Text("unknown_error")
              case Some(tokens) =>
                && r.answer.status == 200
                && "token_type" in r.answer.body && "expires_in" in r.answer.body && "access_token" in r.answer.body
                && r.answer.body["token_type"] == Text("Bearer")
                && r.answer.body["expires_in"] == Int(AccessTokenTtl(accessTtl))
                && r.answer.body["access_token"] == Text(tokens.accessToken)
  {
    AnswerOutcome(request, store, Dispatch(request, store, now), AccessTokenTtl(accessTtl), RefreshTokenTtl(refreshTtl),
                  issue, urlencode)
  }

  // ---------------------------------------------------------------------
  // The ID token
  // ---------------------------------------------------------------------

  /** The claims `create_id_token` builds: issuer, subject, the client as sole
      audience, the access token's expiration, and the nonce when there was
      one. */
  function IdTokenClaims(issuer: string, subject: string, client: Client, auth: AuthenticationParameters,
                         accessExpiration: int): (claims: Jwt.Claims)
    ensures claims.Keys == {"iss", "sub", "aud", "exp"} + (if auth.nonce != [] then {"nonce"} else {})
    ensures claims["iss"] == Jwt.Str(issuer) && claims["sub"] == Jwt.Str(subject)
    ensures claims["aud"] == Jwt.StrList([client.clientId])
    ensures claims["exp"] == Jwt.Num(accessExpiration)
    ensures auth.nonce != [] ==> claims["nonce"] == Jwt.Str(auth.nonce)
  {
    var base := map["iss" := Jwt.Str(issuer), "sub" := Jwt.Str(subject),
                    "aud" := Jwt.StrList([client.clientId]), "exp" := Jwt.Num(accessExpiration)];
    if auth.nonce != [] then base["nonce" := Jwt.Str(auth.nonce)] else base
  }

  /** The ID token as `JWTTools.generate_jwt` issues it keeps the audience,
      the access token's expiration and the nonce, is valid from issuance and
      is signed with the configured cipher. */
  lemma IdTokenIssued(issuer: string, subject: string, client: Client, auth: AuthenticationParameters,
                      accessExpiration: int, cipher: Option<string>, key: Jwt.Key, kid: string,
                      now: int, entropy: seq<Jwt.byte>, codec: Jwt.Codec)
    requires |entropy| == 16
    ensures var t := Jwt.Issue(IdTokenClaims(issuer, subject, client, auth, accessExpiration),
                               Jwt.ToolsOptions(cipher, key, kid), now, entropy, codec);
            t.Success? ==>
              && t.value.claims["aud"] == Jwt.StrList([client.clientId])
              && t.value.claims["exp"] == Jwt.Num(accessExpiration)
              && ("nonce" in t.value.claims <==> auth.nonce != [])
              && t.value.claims["nbf"] == t.value.claims["iat"] == Jwt.Num(now)
              && t.value.header["alg"] == Jwt.Cipher(cipher)
              && t.value.header["kid"] == kid
  {
    var claims := IdTokenClaims(issuer, subject, client, auth, accessExpiration);
    var opts := Jwt.ToolsOptions(cipher, key, kid);
    Jwt.GenerateJwtProfile(claims, cipher, key, kid, now, entropy, codec);
    var issued := Jwt.IssueClaims(claims, opts, now, entropy, codec);
    assert "nonce" in issued <==> "nonce" in claims;
  }
}

=== FILE: wrappers.dfy ===
/** Failure-compatible datatypes shared by the model: `Option` for Python's
    `None`-or-value and `Result` for a value or a raised error. */
module Wrappers {

  datatype Option<+T> = None | Some(value: T) {

    predicate IsFailure() {
      None?
    }

    function PropagateFailure<U>(): Option<U>
      requires None?
    {
      None
    }

    function Extract(): T
      requires Some?
    {
      value
    }

    /** The value, or `default` when there is none (Python's `x or default`
        for a value that is never falsy). */
    function GetOr(default: T): T {
      match this
      case Some(v) => v
      case None => default
    }
  }

  datatype Result<+R, +E> = Success(value: R) | Failure(error: E) {

    predicate IsFailure() {
      Failure?
    }

    function PropagateFailure<U>(): Result<U, E>
      requires Failure?
    {
      Failure(error)
    }

    function Extract(): R
      requires Success?
    {
      value
    }
  }
}
